=== FILE: README.md ===
# Discord adapter for the Bot Framework — a Dafny model

This project models the bookkeeping core of a Bot Framework adapter that connects a
chat bot to Discord direct messages. The adapter has four parts, and each has its own
module:

- `Caching` models the correlation cache (`MessageCachingService`). It keeps three
  keyed stores: direct messages by message id, activities the bot sent and activities
  the bot received, both by activity id. Messages are stored selectively on receive;
  every add is an upsert and every lookup returns the entry or nothing. A purge runs at
  most once an hour and drops messages by timestamp. A per-user clear empties all
  three stores of everything belonging to one user.
- `Adapter` models `DiscordAdapter`. It turns gateway events (typing, edits, deletes,
  reactions, messages, button clicks) into activities for the dialog engine. It turns
  the dialog engine's outbound activities into gateway calls. On the way it keeps the
  registry of active conversations and the per-user typing debounce up to date.
- `Extensions` models the fluent activity helpers (`ActivityExtensions`).
- `Bot` models `DiscordBot`. It covers the severity-to-log-level mapping, the
  connected guard, the token check on start and the choice between a plain send and a
  file upload.
- `Schema` holds the shared data. Discord's users, channels, messages and buttons are
  values. The Bot Framework activity is a class, because the adapter changes it in
  place and caches it by reference.

Effects are recorded, not performed:

- Every gateway call is appended to `DiscordBot.calls`.
- Every hand-over to the dialog engine is appended to `DiscordAdapter.turns`.
- Response identifiers come from a counter.
- The message Discord creates for a send is a parameter.
- The current time is a parameter, in milliseconds since the Unix epoch.
- Each bot veto hook is a boolean parameter `allowed` that defaults to true.

## Model

| member | source | states |
|---|---|---|
| `Extensions.ReactionsOf` | src/DiscordAdapter/Extensions/ActivityExtensions.cs:28-31 | One reaction entry per emote, same length, each named after its emote, in order. |
| `Extensions.CreateMessageReactionActivity` | src/DiscordAdapter/Extensions/ActivityExtensions.cs:8-22 | Type becomes MessageReaction, id and reply-to id become the original activity id, conversation and sender are set as given, every other field is unchanged, and the same activity is returned. |
| `Extensions.SetAddedReactions` | src/DiscordAdapter/Extensions/ActivityExtensions.cs:24-33 | The added reactions become one entry per emote in order; every other field, the removed list included, is unchanged. |
| `Extensions.SetAddedReaction` | src/DiscordAdapter/Extensions/ActivityExtensions.cs:35-41 | The added reactions become a single entry named after the emote; the removed list and every other field are unchanged. |
| `Extensions.SetRemovedReactions` | src/DiscordAdapter/Extensions/ActivityExtensions.cs:43-52 | The removed reactions become one entry per emote in order; the added list and every other field are unchanged. |
| `Extensions.SetRemovedReaction` | src/DiscordAdapter/Extensions/ActivityExtensions.cs:54-60 | The removed reactions become a single entry named after the emote; the added list and every other field are unchanged. |
| `Extensions.AddReaction` | src/DiscordAdapter/Extensions/ActivityExtensions.cs:62-69 | The reaction is appended to the added list (an empty list when there was none); earlier entries keep their order and the removed list is unchanged. |
| `Extensions.RemoveReaction` | src/DiscordAdapter/Extensions/ActivityExtensions.cs:71-78 | The reaction is appended to the removed list (an empty list when there was none); earlier entries keep their order and the added list is unchanged. |
| `Extensions.ReverseSenderAndRecipient` | src/DiscordAdapter/Extensions/ActivityExtensions.cs:80-87 | Sender and recipient are swapped; nothing else changes. |
| `Extensions.ReverseTwice` | src/DiscordAdapter/Extensions/ActivityExtensions.cs:80-87 | Swapping twice restores the original sender and recipient. |
| `Caching.Purged` | src/DiscordAdapter/MessageCachingService.cs:88-98 | A purge keeps exactly the messages whose whole Unix second is not below the cutoff's, unchanged, and adds none. |
| `Caching.ClearedMessages` | src/DiscordAdapter/MessageCachingService.cs:160-165 | Clearing a user removes exactly the direct messages the user wrote or received; every other message survives unchanged. |
| `Caching.ClearedActivities` | src/DiscordAdapter/MessageCachingService.cs:171-186 | Clearing a user removes exactly the activities whose conversation id is the user's id; every other activity survives. |
| `Caching.MessageCachingService.constructor` | src/DiscordAdapter/MessageCachingService.cs:18-31 | The service starts with three empty stores and the last purge at the start time. |
| `Caching.MessageCachingService.HandleMessageReceived` | src/DiscordAdapter/MessageCachingService.cs:40-53 | A message is upserted under its id exactly when it is a user message in a direct channel from an author that is not a bot. A purge with the current time as cutoff follows exactly when more than an hour has passed since the last one. The activity stores are untouched. |
| `Caching.MessageCachingService.AddDiscordBotMessage` | src/DiscordAdapter/MessageCachingService.cs:59-66 | A direct message is upserted under its id; any other message leaves the cache unchanged. |
| `Caching.MessageCachingService.GetUserMessage` | src/DiscordAdapter/MessageCachingService.cs:73-82 | The stored message when its id is present, nothing otherwise; no store changes. |
| `Caching.MessageCachingService.PurgeOldMessages` | src/DiscordAdapter/MessageCachingService.cs:88-98 | The message store becomes exactly the purge of the old store at the cutoff, the last purge time becomes now, and the activity stores are untouched. |
| `Caching.MessageCachingService.AddSentMessageActivity` | src/DiscordAdapter/MessageCachingService.cs:104-108 | The activity is upserted under its id in the sent store; the other two stores are unchanged. |
| `Caching.MessageCachingService.AddReceivedMessageActivity` | src/DiscordAdapter/MessageCachingService.cs:114-118 | The activity is upserted under its id in the received store; the other two stores are unchanged. |
| `Caching.MessageCachingService.GetSentMessageActivity` | src/DiscordAdapter/MessageCachingService.cs:125-134 | The stored sent activity when its id is present, nothing otherwise. |
| `Caching.MessageCachingService.GetReceivedMessageActivity` | src/DiscordAdapter/MessageCachingService.cs:141-150 | The stored received activity when its id is present, nothing otherwise. |
| `Caching.MessageCachingService.ClearCacheForUser` | src/DiscordAdapter/MessageCachingService.cs:156-190 | After the clear, each of the three stores is exactly its old contents cleared of the user. |
| `Caching.MessageCachingService.RemoveUserMessages` | src/DiscordAdapter/MessageCachingService.cs:158-167 | The first scan clears the message store of the user and touches nothing else. |
| `Caching.MessageCachingService.RemoveUserSentActivities` | src/DiscordAdapter/MessageCachingService.cs:169-177 | The second scan clears the sent store of the user and touches nothing else. |
| `Caching.MessageCachingService.RemoveUserReceivedActivities` | src/DiscordAdapter/MessageCachingService.cs:179-187 | The third scan clears the received store of the user and touches nothing else. |
| `Caching.PurgeLeavesOnlyCurrentSecond` | src/DiscordAdapter/MessageCachingService.cs:48-51 | Because the cutoff is the current time, a message survives a purge only if it was stamped in the current second or later; a message one second old is evicted. |
| `Caching.PurgeIdempotent` | src/DiscordAdapter/MessageCachingService.cs:88-98 | Purging again with the same cutoff removes nothing more. |
| `Caching.ClearMessagesIdempotent` | src/DiscordAdapter/MessageCachingService.cs:156-167 | Clearing a user twice removes nothing more, and no remaining message belongs to the user. |
| `Caching.PurgeMonotone` | src/DiscordAdapter/MessageCachingService.cs:90-91 | A purge with a later cutoff keeps a subset of what a purge with an earlier cutoff keeps. |
| `Bot.MapLogLevel` | src/DiscordAdapter/DiscordBot.cs:46-55 | The mapping is total and never silent: Critical, Error, Warning and Debug keep their names, Verbose becomes Trace, and Info and every other value become Information. Each direction holds. |
| `Bot.DiscordBot.constructor` | src/DiscordAdapter/DiscordBot.cs:27 | The bot starts uninitialised and not connected, with no calls made. |
| `Bot.DiscordBot.HandleReady` | src/DiscordAdapter/DiscordBot.cs:65-69 | Ready sets the initialised flag; the bot is then connected exactly when the client is. |
| `Bot.DiscordBot.ClientStateChanged` | src/DiscordAdapter/DiscordBot.cs:32 | A client state change leaves the initialised flag alone; connected holds exactly when initialised and the state is Connected. |
| `Bot.DiscordBot.StartAsync` | src/DiscordAdapter/DiscordBot.cs:103-114 | A missing or empty token is rejected with nothing changed; otherwise the events are registered and the calls are login, then start. |
| `Bot.DiscordBot.StopAsync` | src/DiscordAdapter/DiscordBot.cs:116-120 | Stopping the client is followed by logging out. |
| `Bot.DiscordBot.SendMessageToUser` | src/DiscordAdapter/DiscordBot.cs:79-99 | No attachments, or an empty list, gives a plain send; otherwise the send uploads the files. The sent message is returned. |
| `Adapter.EmittedTypingsSpaced` | src/DiscordAdapter/DiscordAdapter.cs:104-127 | Under the debounce, any two consecutive typing activities of one user are at least 3 s apart, whatever the arrival times. The first is at least 3 s after the recorded time, and every emission is at an arrival time. |
| `Adapter.TypingScenario` | src/DiscordAdapter/DiscordAdapter.cs:104-112 | Typing at 0 s, 1 s and 3.2 s emits at 0 s and 3.2 s only. |
| `Adapter.SuggestedButtons` | src/DiscordAdapter/DiscordAdapter.cs:345-356 | No buttons when the actions are missing or empty; otherwise min(n, 5) enabled primary buttons, in order, each with the action title as caption and custom id. |
| `Adapter.ButtonCapScenario` | src/DiscordAdapter/DiscordAdapter.cs:350 | Seven actions give exactly the first five buttons. |
| `Adapter.CreateSuggestedActionButtons` | src/DiscordAdapter/DiscordAdapter.cs:345-356 | The loop builds exactly the capped button list. |
| `Adapter.RowButtons` | src/DiscordAdapter/DiscordAdapter.cs:322-330 | The buttons of a row come from its components, and no more of them than there are components. Every button component's button is kept; only other kinds of component are skipped. |
| `Adapter.RowButtonsAppend` | src/DiscordAdapter/DiscordAdapter.cs:322-330 | The buttons of two rows placed side by side are the first row's buttons followed by the second's. The filter keeps order. |
| `Adapter.AllButtonsRow` | src/DiscordAdapter/DiscordAdapter.cs:322-330 | A row made only of buttons yields exactly those buttons. |
| `Adapter.RestyledRow` | src/DiscordAdapter/DiscordAdapter.cs:317-333 | After a click the row has the same buttons in the same order, all disabled; a button is Primary exactly when its custom id is the clicked one and Secondary otherwise. A message without rows yields no row. |
| `Adapter.RestyleIdempotent` | src/DiscordAdapter/DiscordAdapter.cs:317-333 | Restyling an already restyled row for the same click changes nothing. |
| `Adapter.RebuildButtonRow` | src/DiscordAdapter/DiscordAdapter.cs:320-331 | The loop over the first row's components builds exactly the restyled row. |
| `Adapter.FetchedUrls` | src/DiscordAdapter/DiscordAdapter.cs:527-530 | Exactly the attachments with a missing or empty address are skipped. Every fetched address is non-empty and belongs to an attachment, and every attachment with a non-empty address is fetched. |
| `Adapter.FetchedUrlsAppend` | src/DiscordAdapter/DiscordAdapter.cs:527-530 | The addresses fetched for two attachment lists in a row are those of the first list followed by those of the second. Order is kept. |
| `Adapter.FilesFor` | src/DiscordAdapter/DiscordAdapter.cs:517-540 | No list when the attachments are missing or empty; otherwise one file per fetched address, in order. |
| `Adapter.GetFilesFromAttachments` | src/DiscordAdapter/DiscordAdapter.cs:517-540 | The loop builds exactly the file list for the attachments. |
| `Adapter.TurnErrorReplies` | src/DiscordAdapter/DiscordAdapter.cs:70-86 | The error handler emits two fixed notices that expect input, then a trace carrying the exception message. |
| `Adapter.DiscordAdapter.constructor` | src/DiscordAdapter/DiscordAdapter.cs:39-62 | The adapter starts with a fresh, empty cache, no active conversations, no typing times and no turns. |
| `Adapter.DiscordAdapter.GetChannelAccount` | src/DiscordAdapter/DiscordAdapter.cs:658-666 | The account carries the user's id and name, with the bot role exactly when the user is the bot. |
| `Schema.Blank` | src/DiscordAdapter/DiscordAdapter.cs:696 | A string is blank (`string.IsNullOrWhiteSpace`) exactly when every character is .NET white space. |
| `Schema.TextOrNone` | src/DiscordAdapter/DiscordAdapter.cs:696 | `MessageFactory.Text` stores nothing for a text that is empty or white space throughout, and the text itself otherwise. |
| `Adapter.DiscordAdapter.GetMessageToBot` | src/DiscordAdapter/DiscordAdapter.cs:694-727 | A new message activity carries the message's id. Its text and its speech are the content, or absent when the content is empty or white space. It accepts input and starts with an empty attachment list. It comes from the channel's recipient to the bot. It has a conversation exactly when the recipient has an active one. |
| `Adapter.DiscordAdapter.HandleUserIsTyping` | src/DiscordAdapter/DiscordAdapter.cs:94-132 | A typing activity from the user to the bot, in the user's conversation, is handed over exactly when all of these hold: the hook allows it, the channel is direct, the user is not the bot, the recipient has a conversation, and the user has no typing time or one at least 3 s old. The typing time becomes now exactly then and is unchanged otherwise. |
| `Adapter.DiscordAdapter.HandleMessageUpdated` | src/DiscordAdapter/DiscordAdapter.cs:141-163 | An edit is handed over exactly when all of these hold: the channel is direct, the received store holds the original id, the editor is not the bot, and the recipient has a conversation. The cached activity itself then gets the new text and the update type, and no other field or activity changes. |
| `Adapter.DiscordAdapter.HandleMessageDeleted` | src/DiscordAdapter/DiscordAdapter.cs:171-201 | A delete activity is handed over exactly when all of these hold: the channel is direct, the message is cached, its author is not the bot, and the recipient has a conversation. The activity carries the message's id, text and author. The cache is unchanged. |
| `Adapter.DiscordAdapter.HandleReactionRemoved` | src/DiscordAdapter/DiscordAdapter.cs:210-238 | For a reactor who is not the bot and has a conversation, a reaction activity about the message, with the single emote as removed, is handed over; otherwise nothing happens. |
| `Adapter.DiscordAdapter.HandleReactionAdded` | src/DiscordAdapter/DiscordAdapter.cs:247-275 | For a reactor who is not the bot and has a conversation, a reaction activity about the message, with the single emote as added, is handed over; otherwise nothing happens. |
| `Adapter.DiscordAdapter.HandleMessageReceived` | src/DiscordAdapter/DiscordAdapter.cs:282-298 | Only a non-bot author's message in a direct channel continues or starts a conversation; anything else changes nothing. The cache's last purge time is never touched. |
| `Adapter.DiscordAdapter.CreateOrContinueDiscordConversationAsync` | src/DiscordAdapter/DiscordAdapter.cs:611-628 | With an active conversation, the message activity is cached under the message id and handed over. It has no input hint, its text is the content (absent when blank), and it is in the recipient's conversation. The other stores and the last purge time are unchanged on both paths. Without one, a conversation start is handed over and nothing is cached. |
| `Adapter.DiscordAdapter.HandleButtonClicked` | src/DiscordAdapter/DiscordAdapter.cs:305-338 | In a direct channel, all of the message's components are replaced by one row: the first row's buttons, restyled and disabled. Then a message activity built as for a received message is handed over. Its text is the clicked custom id and its speech the content (absent when blank). It goes from the channel's recipient to the bot, in the recipient's conversation when one is active. A message without rows stops before either happens. |
| `Adapter.DiscordAdapter.SendActivitiesAsync` | src/DiscordAdapter/DiscordAdapter.cs:400-461 | When not connected, the call fails and nothing changes, activity ids included. Otherwise there is one response per activity, in order, each with a fresh, distinct identifier, unhandled kinds included. The call log grows by each activity's calls in batch order. When no activity occurs twice, each message activity takes its reply's id, and the registry is the old one with each message's reference registered in turn. Only the ids of message activities may change; no other field of any activity does. The cache's last purge time is unchanged. |
| `Adapter.DiscordAdapter.Acknowledge` | src/DiscordAdapter/DiscordAdapter.cs:410-456 | One response per activity, in order, each identifier fresh and all of them distinct. The counter advances by the batch size. |
| `Adapter.DiscordAdapter.SendEach` | src/DiscordAdapter/DiscordAdapter.cs:411-456 | The loop sends each activity in turn, with the same effect on the call log, the ids and the registry as the batch as a whole states. |
| `Adapter.DiscordAdapter.SendStep` | src/DiscordAdapter/DiscordAdapter.cs:419-452 | Sending the next activity extends what holds for the first activities of the batch to one more. |
| `Adapter.BatchCallsAppend` | src/DiscordAdapter/DiscordAdapter.cs:411-452 | The calls of two batches sent one after the other are the calls of the two batches sent as one. |
| `Adapter.BatchCallsSnoc` | src/DiscordAdapter/DiscordAdapter.cs:411-452 | Sending one more activity after a batch adds that activity's calls at the end of the batch's calls. |
| `Adapter.RegistryAfterCovers` | src/DiscordAdapter/DiscordAdapter.cs:434 | Sending a batch never removes a registry entry, and every user a message of the batch went to has an entry afterwards. |
| `Adapter.DiscordAdapter.SendActivity` | src/DiscordAdapter/DiscordAdapter.cs:419-452 | A message activity is sent with text (else speech), capped buttons and files. The user's registry entry is overwritten with the activity's reference from before the send, the activity takes the Discord message id, and the message and the activity are cached. Only a message activity's id changes; no other field of the activity does. The cache's last purge time is unchanged on every path. Reaction, typing and end-of-conversation activities make their calls; other kinds do nothing. |
| `Adapter.DiscordAdapter.AddAndRemoveReactionsFromMessageAsync` | src/DiscordAdapter/DiscordAdapter.cs:493-510 | The bot adds each added reaction, then removes each removed reaction, in order. The removals are made as the activity's sender, or as the bot when there is no sender. |
| `Adapter.DiscordAdapter.EndConversationAsync` | src/DiscordAdapter/DiscordAdapter.cs:468-473 | The activity's text, or "The conversation has ended.", is sent. Then all three stores are cleared of the user. The active-conversation entry is kept. |

## Left out

- Discord network calls are not performed. Sends, uploads, reactions, the typing indicator and button updates are recorded as entries of the call log. The message Discord returns for a send is a parameter.
- Fetches are not recorded as entries of their own:
  - The user and direct-channel fetches before an outbound send, message or typing, are folded into the send's entry.
  - The user, direct-channel and message fetches before the reaction calls (src/DiscordAdapter/DiscordAdapter.cs:499-501) are folded into those calls.
  - The inbound resolutions of users, channels and messages (src/DiscordAdapter/DiscordAdapter.cs:101-104, 178, 226, 263) are parameters of the handlers.
  - The direct-channel creation of a conversation start (src/DiscordAdapter/DiscordAdapter.cs:676) is part of the `StartConversation` turn.
- `DeleteActivityAsync` and `UpdateActivityAsync` (src/DiscordAdapter/DiscordAdapter.cs:358-398) are left out. Past the connected guard, each one only fetches a message over the network and deletes or edits it.
- The Bot Framework turn pipeline (`ProcessActivityAsync`, `RunPipelineAsync`, the turn context) is reduced to appending a turn to `turns`. The activity's JSON logging is left out.
- A conversation start (`StartDiscordConversationAsync`, `CreateConversationAsync`, `GetConversationParametersAsync`) is recorded as a `StartConversation` turn naming the user. The details of its conversation-update activity (members, generated id, locale) are not modelled.
- Fire-and-forget `Task.Run` handlers, `Task.WaitAll` and the thread safety of the concurrent dictionaries are not modelled. Everything runs sequentially. The three scans of the per-user clear touch disjoint stores, and the purge runs inside the receive handler.
- Times are whole milliseconds, not `DateTimeOffset` values with fractional seconds. Unix seconds are the floor of milliseconds divided by 1000.
- Discord ids are numbers where the source renders them as decimal strings: activity ids, conversation ids and registry keys. Failures to parse a non-numeric id are not modelled.
- Activity fields the adapter sets but never reads back are omitted: channel id, locale, text format, timestamp and entities.
- `Adapter.GetFilesFromAttachments`: a file stands for its address. The HTTP download, its failures (which the source does not catch) and the stream handling are not modelled.
- `Adapter.DiscordAdapter.HandleReactionAdded` and `Adapter.DiscordAdapter.HandleReactionRemoved` take the reacting user as already fetched. A fetch that returns nothing is not modelled.
- `Adapter.DiscordAdapter.HandleUserIsTyping` takes the user and the channel as already resolved from the gateway's cache or by a fetch. `None` stands for a resolution that returned nothing.
- `Adapter.DiscordAdapter.SendActivitiesAsync` requires, when the bot is connected, every message, reaction, typing and end-of-conversation activity to have a conversation, and every reaction activity an id. The source throws part-way through the loop otherwise, and that path is not modelled. When the bot is not connected nothing is required, since the source fails before it reads any activity.
- `Adapter.DiscordAdapter.SendActivitiesAsync` promises the new ids and the new registry only for a batch in which no activity object occurs twice. When one occurs twice, its second send sees the id the first send wrote; the model then promises the call log and the frame but not the ids or the registry.
- `Adapter.DiscordAdapter.SendActivitiesAsync` does not state the cache after a whole batch. `Adapter.DiscordAdapter.SendActivity` states it for each activity: the reply and the message activity are cached, and an end of conversation clears the user.
- `Adapter.DiscordAdapter.SendActivitiesAsync` creates the responses after the sends instead of one per pass of the loop. The response counter and the sends touch disjoint state, so the outcome is the same. Identifiers come from a counter rather than `Guid.NewGuid`.
- `MessageFactory.Text` belongs to the Bot Framework SDK, which is not part of this model. `Schema.TextOrNone` follows its rule: a null, empty or white-space text is stored as null. White space is the character set of .NET's `char.IsWhiteSpace`.
- `Adapter.DiscordAdapter.AddAndRemoveReactionsFromMessageAsync` records the reaction calls in issue order. The source issues each one from an async lambda passed to `List.ForEach`, that is an `async void` action that is never awaited. The calls can complete in any order. A failing call is rethrown outside any handler, which by default terminates the process. So is the null-reference exception when the message fetch returns nothing and a list is non-empty. Neither the completion order nor these failures are modelled.
- `Adapter.CreateSuggestedActionButtons` models the suggested actions as one optional list, so suggested actions present with a null action list cannot arise. The source throws a null-reference exception for them, and that path is not modelled.
- `Extensions.SetAddedReactions` and `Extensions.SetRemovedReactions` take the emote list as a value, which cannot be null. The source throws a null-reference exception for a null list, and that path is not modelled.
- `Caching.ClearedActivities` keeps an activity that has no conversation. The source would throw on it during the per-user clear.
- Reaction lists are values. The source's `List` objects, which can be shared between activities, are not.
- `ToDiscordEmote` (src/DiscordAdapter/Extensions/MessageReactionExtensions.cs) is not modelled. A reaction is identified by its emote name.
- `HandleLog` only writes a log line, at the level `Bot.MapLogLevel` gives. Writing log lines is not modelled.
- The veto hooks of src/DiscordAdapter/IDiscordBot.cs are reduced to the `allowed` parameter of each handler.
- Dependency-injection and hosting wiring, the option classes, and the sample bot are not part of this model.

=== FILE: adapter.dfy ===
/** The Discord adapter: it turns gateway events into activities for the dialog engine
    (each handed over is recorded as a turn), and the dialog engine's outbound
    activities into gateway calls, keeping the per-user conversation registry, the
    typing debounce and the correlation cache up to date on the way. */
module Adapter {
  import opened Schema
  import opened Bot
  import opened Caching
  import Extensions

  /** Minimum spacing between two typing activities of one user, in milliseconds. */
  const TypingGap: int := 3000
  /** Most buttons made from suggested actions. */
  const MaxButtons: nat := 5
  const DefaultEndText: string := "The conversation has ended."
  const ErrorNoticeText: string := "The bot encountered an error or bug."
  const FixSourceText: string := "To continue to run this bot, please fix the bot source code."

  /** What the adapter hands to the dialog engine: an activity to run a turn on, or the
      start of a conversation with a user who has none yet. */
  datatype Turn = Process(activity: Activity) | StartConversation(user: User)

  datatype AdapterError = NotConnected

  datatype Result<T> = Ok(value: T) | Err(error: AdapterError)

  // -------------------------------------------------------------- typing debounce

  /** A typing signal is passed on when the user has no recorded typing time, or when at
      least three seconds have passed since the recorded one. */
  predicate TypingDue(last: Option<Time>, now: Time) {
    last.None? || now - last.value >= TypingGap
  }

  /** The times at which typing activities go out when one user's typing signals arrive
      at `times`, starting from the recorded time `last`: the debounce replayed. */
  function EmittedTypings(last: Option<Time>, times: seq<Time>): seq<Time>
    decreases |times|
  {
    if times == [] then []
    else if TypingDue(last, times[0]) then [times[0]] + EmittedTypings(Some(times[0]), times[1..])
    else EmittedTypings(last, times[1..])
  }

  /** Whatever the arrival times, two typing activities of one user that go out one
      after the other are at least three seconds apart, and the first is at least three
      seconds after the recorded time; every emitted time is an arrival time. */
  lemma {:induction false} EmittedTypingsSpaced(last: Option<Time>, times: seq<Time>)
    ensures var e := EmittedTypings(last, times);
      && (forall i :: 0 <= i < |e| ==> e[i] in times)
      && (last.Some? && |e| > 0 ==> e[0] - last.value >= TypingGap)
      && (forall i :: 0 <= i < |e| - 1 ==> e[i + 1] - e[i] >= TypingGap)
    decreases |times|
  {
    if times != [] {
      if TypingDue(last, times[0]) {
        EmittedTypingsSpaced(Some(times[0]), times[1..]);
        var e := EmittedTypings(last, times);
        var rest := EmittedTypings(Some(times[0]), times[1..]);
        assert e == [times[0]] + rest;
        forall i | 0 <= i < |e| ensures e[i] in times {
          if i > 0 {
            assert e[i] == rest[i - 1];
          }
        }
      } else {
        EmittedTypingsSpaced(last, times[1..]);
      }
    }
  }

  /** Typing at 0 s, 1 s and 3.2 s: the second signal is suppressed, the third goes out. */
  lemma TypingScenario()
    ensures EmittedTypings(None, [0, 1000, 3200]) == [0, 3200]
  {
  }

  // ----------------------------------------------------- suggested-action buttons

  /** The buttons made from suggested actions: none when there are no actions (or no
      list); otherwise one enabled primary button per action among the first five, in
      order, with the action's title as both caption and custom id. */
  function SuggestedButtons(actions: Option<seq<CardAction>>): (r: Option<seq<Button>>)
    ensures r.None? <==> actions.None? || |actions.value| == 0
    ensures r.Some? ==> |r.value| == if |actions.value| < MaxButtons then |actions.value| else MaxButtons
    ensures r.Some? ==> forall i :: 0 <= i < |r.value| ==>
      r.value[i] == Button(actions.value[i].title, actions.value[i].title, Primary, false)
  {
    if actions.None? || |actions.value| == 0 then None
    else
      var n := if |actions.value| < MaxButtons then |actions.value| else MaxButtons;
      Some(seq(n, i requires 0 <= i < n => Button(actions.value[i].title, actions.value[i].title, Primary, false)))
  }

  /** Seven suggested actions give exactly the first five as buttons. */
  lemma ButtonCapScenario(actions: seq<CardAction>)
    requires |actions| == 7
    ensures SuggestedButtons(Some(actions)).Some?
    ensures |SuggestedButtons(Some(actions)).value| == 5
    ensures forall i :: 0 <= i < 5 ==> SuggestedButtons(Some(actions)).value[i].customId == actions[i].title
  {
  }

  method CreateSuggestedActionButtons(actions: Option<seq<CardAction>>) returns (r: Option<seq<Button>>)
    ensures r == SuggestedButtons(actions)
  {
    if actions.None? || |actions.value| == 0 {
      return None;
    }
    var cards := actions.value;
    var n := if |cards| < MaxButtons then |cards| else MaxButtons;
    var row: seq<Button> := [];
    var i := 0;
    while i < n
      invariant 0 <= i <= n
      invariant |row| == i
      invariant forall j :: 0 <= j < i ==> row[j] == Button(cards[j].title, cards[j].title, Primary, false)
    {
      row := row + [Button(cards[i].title, cards[i].title, Primary, false)];
      i := i + 1;
    }
    assert row == SuggestedButtons(actions).value;
    return Some(row);
  }

  // --------------------------------------------------------- button-row restyle

  /** The buttons of an action row, in order, skipping every other kind of component. */
  function RowButtons(row: seq<Component>): (r: seq<Button>)
    ensures |r| <= |row|
    ensures forall b :: b in r ==> ButtonComponent(b) in row
    ensures forall i :: 0 <= i < |row| && row[i].ButtonComponent? ==> row[i].button in r
  {
    if row == [] then []
    else
      var last := row[|row| - 1];
      RowButtons(row[..|row| - 1]) + (if last.ButtonComponent? then [last.button] else [])
  }

  /** The buttons of two rows placed side by side are the first row's buttons followed
      by the second's: the filter keeps order and drops nothing but other components. */
  lemma {:induction false} RowButtonsAppend(s: seq<Component>, t: seq<Component>)
    ensures RowButtons(s + t) == RowButtons(s) + RowButtons(t)
    decreases |t|
  {
    if t == [] {
      assert s + t == s;
    } else {
      var n := |t|;
      assert (s + t)[..|s + t| - 1] == s + t[..n - 1];
      RowButtonsAppend(s, t[..n - 1]);
    }
  }

  /** The row shown after a click: the buttons of the message's first row, same
      captions and custom ids in the same order, all disabled, the clicked one (by custom
      id) Primary and the others Secondary. A message without rows has no first row,
      so there is nothing to rebuild. */
  function RestyledRow(rows: seq<seq<Component>>, clickedId: string): (r: Option<seq<Button>>)
    ensures r.None? <==> |rows| == 0
    ensures r.Some? ==> |r.value| == |RowButtons(rows[0])|
    ensures r.Some? ==> forall i :: 0 <= i < |r.value| ==>
      var b := RowButtons(rows[0])[i];
      && r.value[i].caption == b.caption
      && r.value[i].customId == b.customId
      && r.value[i].disabled
      && (r.value[i].style == Primary <==> b.customId == clickedId)
      && (r.value[i].style != Primary ==> r.value[i].style == Secondary)
  {
    if |rows| == 0 then None
    else
      var buttons := RowButtons(rows[0]);
      Some(seq(|buttons|, i requires 0 <= i < |buttons| =>
        Button(buttons[i].caption, buttons[i].customId,
               if buttons[i].customId == clickedId then Primary else Secondary, true)))
  }

  /** An action row holding exactly the given buttons. */
  function AsRow(buttons: seq<Button>): (row: seq<Component>)
    ensures |row| == |buttons|
    ensures forall i :: 0 <= i < |row| ==> row[i] == ButtonComponent(buttons[i])
  {
    seq(|buttons|, i requires 0 <= i < |buttons| => ButtonComponent(buttons[i]))
  }

  /** Rebuilding an already rebuilt row for the same click changes nothing. */
  lemma RestyleIdempotent(rows: seq<seq<Component>>, clickedId: string)
    requires |rows| > 0
    ensures var once := RestyledRow(rows, clickedId).value;
      RestyledRow([AsRow(once)], clickedId) == Some(once)
  {
    var once := RestyledRow(rows, clickedId).value;
    AllButtonsRow(once);
    var twice := RestyledRow([AsRow(once)], clickedId).value;
    assert |twice| == |once|;
    forall i | 0 <= i < |once| ensures twice[i] == once[i] {
    }
    assert twice == once;
  }

  /** A row made only of buttons has exactly those buttons. */
  lemma {:induction false} AllButtonsRow(buttons: seq<Button>)
    ensures RowButtons(AsRow(buttons)) == buttons
    decreases |buttons|
  {
    if buttons != [] {
      var n := |buttons|;
      var row := AsRow(buttons);
      AllButtonsRow(buttons[..n - 1]);
      assert row[..n - 1] == AsRow(buttons[..n - 1]);
      assert buttons == buttons[..n - 1] + [buttons[n - 1]];
    }
  }

  /** The rebuild of the clicked message's first row, one component at a time. */
  method RebuildButtonRow(rows: seq<seq<Component>>, clickedId: string) returns (r: Option<seq<Button>>)
    ensures r == RestyledRow(rows, clickedId)
  {
    if |rows| == 0 {
      return None;
    }
    var row := rows[0];
    var built: seq<Button> := [];
    var i := 0;
    while i < |row|
      invariant 0 <= i <= |row|
      invariant |built| == |RowButtons(row[..i])|
      invariant forall j :: 0 <= j < |built| ==>
        var b := RowButtons(row[..i])[j];
        built[j] == Button(b.caption, b.customId, if b.customId == clickedId then Primary else Secondary, true)
    {
      assert row[..i + 1][..i] == row[..i];
      var component := row[i];
      if component.ButtonComponent? {
        var btn := component.button;
        built := built + [Button(btn.caption, btn.customId, if btn.customId == clickedId then Primary else Secondary, true)];
      }
      i := i + 1;
    }
    assert row[..i] == row;
    assert built == RestyledRow(rows, clickedId).value;
    return Some(built);
  }

  // ------------------------------------------------------------------ attachments

  /** The addresses of the attachments that are fetched, in order: every attachment
      except those whose address is missing or empty. */
  function FetchedUrls(attachments: seq<Attachment>): (r: seq<string>)
    ensures |r| <= |attachments|
    ensures forall u :: u in r ==> u != [] && Attachment(Some(u)) in attachments
    ensures forall i :: 0 <= i < |attachments| && attachments[i].contentUrl.Some? && attachments[i].contentUrl.value != [] ==>
      attachments[i].contentUrl.value in r
  {
    if attachments == [] then []
    else
      var last := attachments[|attachments| - 1];
      FetchedUrls(attachments[..|attachments| - 1])
        + (if last.contentUrl.Some? && last.contentUrl.value != [] then [last.contentUrl.value] else [])
  }

  /** The addresses fetched for two attachment lists in a row are those of the first
      list followed by those of the second: order is kept and only blank addresses drop. */
  lemma {:induction false} FetchedUrlsAppend(s: seq<Attachment>, t: seq<Attachment>)
    ensures FetchedUrls(s + t) == FetchedUrls(s) + FetchedUrls(t)
    decreases |t|
  {
    if t == [] {
      assert s + t == s;
    } else {
      var n := |t|;
      assert (s + t)[..|s + t| - 1] == s + t[..n - 1];
      FetchedUrlsAppend(s, t[..n - 1]);
    }
  }

  /** The files prepared for upload: no list when there are no attachments (or no
      list), otherwise one file per fetched address, in order. */
  function FilesFor(attachments: Option<seq<Attachment>>): (r: Option<seq<FileAttachment>>)
    ensures r.None? <==> attachments.None? || |attachments.value| == 0
    ensures r.Some? ==> |r.value| == |FetchedUrls(attachments.value)|
    ensures r.Some? ==> forall i :: 0 <= i < |r.value| ==> r.value[i].url == FetchedUrls(attachments.value)[i]
  {
    if attachments.None? || |attachments.value| == 0 then None
    else
      Some(FileList(FetchedUrls(attachments.value)))
  }

  /** One file per address, in order. */
  function FileList(urls: seq<string>): seq<FileAttachment> {
    seq(|urls|, i requires 0 <= i < |urls| => FileAttachment(urls[i]))
  }

  /** One more attachment adds its address, unless that is missing or empty. */
  lemma FetchedUrlsStep(all: seq<Attachment>, i: nat)
    requires i < |all|
    ensures FetchedUrls(all[..i + 1]) == FetchedUrls(all[..i])
      + (if all[i].contentUrl.Some? && all[i].contentUrl.value != [] then [all[i].contentUrl.value] else [])
  {
    assert all[..i + 1][..i] == all[..i];
  }

  /** One more address adds one file at the end. */
  lemma FileListSnoc(urls: seq<string>, url: string)
    ensures FileList(urls + [url]) == FileList(urls) + [FileAttachment(url)]
  {
  }

  /** Prepares the attachments of an outbound message; the download of each file is not
      modelled (a file stands for its address). */
  method GetFilesFromAttachments(attachments: Option<seq<Attachment>>) returns (files: Option<seq<FileAttachment>>)
    ensures files == FilesFor(attachments)
  {
    if attachments.None? || |attachments.value| == 0 {
      return None;
    }
    var all := attachments.value;
    var list: seq<FileAttachment> := [];
    var i := 0;
    while i < |all|
      invariant 0 <= i <= |all|
      invariant list == FileList(FetchedUrls(all[..i]))
    {
      FetchedUrlsStep(all, i);
      var file := all[i];
      if file.contentUrl.Some? && file.contentUrl.value != [] {
        FileListSnoc(FetchedUrls(all[..i]), file.contentUrl.value);
        list := list + [FileAttachment(file.contentUrl.value)];
      }
      i := i + 1;
    }
    assert all[..i] == all;
    return Some(list);
  }

  // -------------------------------------------------------------- outbound helpers

  /** The calls that add the bot's reactions to a message, one per reaction, in order. */
  function AddReactionCalls(userId: Snowflake, messageId: Snowflake, reactions: seq<Reaction>): seq<GatewayCall>
  {
    seq(|reactions|, i requires 0 <= i < |reactions| => AddReaction(userId, messageId, reactions[i].kind))
  }

  /** The calls that remove a user's reactions from a message, one per reaction, in order. */
  function RemoveReactionCalls(userId: Snowflake, messageId: Snowflake, reactions: seq<Reaction>, reacterId: Snowflake): seq<GatewayCall>
  {
    seq(|reactions|, i requires 0 <= i < |reactions| => RemoveReaction(userId, messageId, reactions[i].kind, reacterId))
  }

  /** What the registry keeps of an outbound message activity. */
  function ConversationReferenceOf(a: Activity): ConversationReference
    reads a
    requires a.conversation.Some?
  {
    ConversationReference(a.id, a.from, a.recipient, a.conversation.value)
  }

  /** The turn error handler's output: two fixed notices expecting input, then a trace
      carrying the exception's message. */
  datatype ErrorReply =
    | Notice(text: string, speak: string, hint: InputHint)
    | TraceReply(name: string, value: string, valueType: string, traceLabel: string)

  function TurnErrorReplies(exceptionMessage: string): (r: seq<ErrorReply>)
    ensures |r| == 3
    ensures r[0] == Notice(ErrorNoticeText, ErrorNoticeText, ExpectingInput)
    ensures r[1] == Notice(FixSourceText, FixSourceText, ExpectingInput)
    ensures r[2].TraceReply? && r[2].value == exceptionMessage
  {
    [ Notice(ErrorNoticeText, ErrorNoticeText, ExpectingInput),
      Notice(FixSourceText, FixSourceText, ExpectingInput),
      TraceReply("OnTurnError Trace", exceptionMessage, "https://www.botframework.com/schemas/error", "TurnError") ]
  }

  /** The gateway calls sending one outbound activity makes, from the activity's field
      values when it is sent; `botId` is the bot's own id. A message goes to the user of
      its conversation with its text (else its speech), its suggested-action buttons and
      its files; a reaction activity adds, then removes, the bot's reactions on the
      message it names (removals as its sender, or as the bot when it has none); a
      typing activity shows the typing indicator; an end-of-conversation activity sends
      its text or the default closing text. Any other kind makes no call. */
  function SendCalls(f: ActivityFields, botId: Snowflake): seq<GatewayCall> {
    if f.conversation.None? then []
    else if f.kind == Some(MessageType) then [MessageCall(f)]
    else if f.kind == Some(MessageReaction) && f.id.Some? then ReactionCalls(f, botId)
    else if f.kind == Some(Typing) then [TriggerTyping(f.conversation.value.id)]
    else if f.kind == Some(EndOfConversation) then [SendMessage(f.conversation.value.id, Some(f.text.GetOr(DefaultEndText)), None)]
    else []
  }

  /** The one call that sends a message activity to the user of its conversation. */
  function MessageCall(f: ActivityFields): GatewayCall
    requires f.conversation.Some?
  {
    var files := FilesFor(f.attachments);
    var text := if f.text.Some? then f.text else f.speak;
    var buttons := SuggestedButtons(f.suggestedActions);
    if PlainSend(files) then SendMessage(f.conversation.value.id, text, buttons)
    else SendFiles(f.conversation.value.id, files.value, text, buttons)
  }

  /** The calls of a reaction activity on the message it names. */
  function ReactionCalls(f: ActivityFields, botId: Snowflake): seq<GatewayCall>
    requires f.conversation.Some? && f.id.Some?
  {
    AddReactionCalls(f.conversation.value.id, f.id.value, f.reactionsAdded.GetOr([]))
      + RemoveReactionCalls(f.conversation.value.id, f.id.value, f.reactionsRemoved.GetOr([]),
                            if f.from.Some? then f.from.value.id else botId)
  }

  /** The calls of a batch of activities sent one after the other, in order. */
  function BatchCalls(fs: seq<ActivityFields>, botId: Snowflake): seq<GatewayCall>
    decreases |fs|
  {
    if fs == [] then [] else BatchCalls(fs[..|fs| - 1], botId) + SendCalls(fs[|fs| - 1], botId)
  }

  /** Sending two batches one after the other makes the calls of the two batches sent as one. */
  lemma {:induction false} BatchCallsAppend(s: seq<ActivityFields>, t: seq<ActivityFields>, botId: Snowflake)
    ensures BatchCalls(s + t, botId) == BatchCalls(s, botId) + BatchCalls(t, botId)
    decreases |t|
  {
    if t == [] {
      assert s + t == s;
    } else {
      var n := |t|;
      var init, last := t[..n - 1], t[n - 1];
      assert s + t == (s + init) + [last];
      assert t == init + [last];
      BatchCallsAppend(s, init, botId);
      BatchCallsSnoc(s + init, last, botId);
      BatchCallsSnoc(init, last, botId);
      AppendAssociative(BatchCalls(s, botId), BatchCalls(init, botId), SendCalls(last, botId));
    }
  }

  /** Concatenation is associative. */
  lemma AppendAssociative<T>(a: seq<T>, b: seq<T>, c: seq<T>)
    ensures (a + b) + c == a + (b + c)
  {
  }

  /** Sending one more activity after a batch adds that activity's calls at the end. */
  lemma BatchCallsSnoc(fs: seq<ActivityFields>, f: ActivityFields, botId: Snowflake)
    ensures BatchCalls(fs + [f], botId) == BatchCalls(fs, botId) + SendCalls(f, botId)
  {
    assert (fs + [f])[..|fs|] == fs;
  }

  /** Sending one more activity of a batch adds its calls at the end of the log. */
  lemma BatchCallsStep(log0: seq<GatewayCall>, log1: seq<GatewayCall>, log2: seq<GatewayCall>,
                       fs: seq<ActivityFields>, i: nat, botId: Snowflake)
    requires i < |fs|
    requires log1 == log0 + BatchCalls(fs[..i], botId)
    requires log2 == log1 + SendCalls(fs[i], botId)
    ensures log2 == log0 + BatchCalls(fs[..i + 1], botId)
  {
    assert fs[..i + 1][..i] == fs[..i];
  }

  /** A message's calls do not depend on its id, which the send itself overwrites. */
  lemma SendCallsIgnoreMessageId(f: ActivityFields, id: Option<Snowflake>, botId: Snowflake)
    requires f.kind == Some(MessageType)
    ensures SendCalls(f.(id := id), botId) == SendCalls(f, botId)
  {
  }

  /** The conversation registry after one activity is sent: a message activity with a
      conversation overwrites its user's entry with the activity's reference; any other
      activity leaves the registry alone. */
  function Registered(registry: map<Snowflake, ConversationReference>, f: ActivityFields): map<Snowflake, ConversationReference> {
    if f.kind == Some(MessageType) && f.conversation.Some?
    then registry[f.conversation.value.id := ConversationReference(f.id, f.from, f.recipient, f.conversation.value)]
    else registry
  }

  /** The conversation registry after a batch: each activity in order, as `Registered`
      says. */
  function RegistryAfter(registry: map<Snowflake, ConversationReference>, fs: seq<ActivityFields>): map<Snowflake, ConversationReference>
    decreases |fs|
  {
    if fs == [] then registry else Registered(RegistryAfter(registry, fs[..|fs| - 1]), fs[|fs| - 1])
  }

  /** Sending a batch never removes a registry entry, and every user a message of the
      batch went to has one afterwards. */
  lemma {:induction false} RegistryAfterCovers(registry: map<Snowflake, ConversationReference>, fs: seq<ActivityFields>)
    ensures registry.Keys <= RegistryAfter(registry, fs).Keys
    ensures forall i :: 0 <= i < |fs| && fs[i].kind == Some(MessageType) && fs[i].conversation.Some? ==>
      fs[i].conversation.value.id in RegistryAfter(registry, fs)
    decreases |fs|
  {
    if fs != [] {
      var n := |fs|;
      RegistryAfterCovers(registry, fs[..n - 1]);
      forall i | 0 <= i < n - 1 && fs[i].kind == Some(MessageType) && fs[i].conversation.Some?
        ensures fs[i].conversation.value.id in RegistryAfter(registry, fs)
      {
        assert fs[..n - 1][i] == fs[i];
      }
    }
  }

  /** Sending one more activity of a batch registers it after the others. */
  lemma RegistryStep(registry0: map<Snowflake, ConversationReference>, registry1: map<Snowflake, ConversationReference>,
                     fs: seq<ActivityFields>, i: nat)
    requires i < |fs|
    requires registry1 == RegistryAfter(registry0, fs[..i])
    ensures Registered(registry1, fs[i]) == RegistryAfter(registry0, fs[..i + 1])
  {
    assert fs[..i + 1][..i] == fs[..i];
  }

  /** The field values of each activity of a batch. */
  function Snapshots(acts: seq<Activity>): (r: seq<ActivityFields>)
    reads set a | a in acts
    ensures |r| == |acts|
    ensures forall i :: 0 <= i < |acts| ==> r[i] == acts[i].Fields()
    decreases |acts|
  {
    if acts == [] then [] else Snapshots(acts[..|acts| - 1]) + [acts[|acts| - 1].Fields()]
  }

  /** No activity object occurs twice in the batch. */
  ghost predicate DistinctObjects(acts: seq<Activity>) {
    forall j, k :: 0 <= j < k < |acts| ==> acts[j] != acts[k]
  }

  /** An outbound activity the send loop can handle, by its field values: a message,
      reaction, typing or end-of-conversation activity needs a conversation (the user
      to talk to), and a reaction activity also the id of the message it reacts to. */
  predicate SendReady(f: ActivityFields) {
    && (f.kind in {Some(MessageType), Some(MessageReaction), Some(Typing), Some(EndOfConversation)} ==> f.conversation.Some?)
    && (f.kind == Some(MessageReaction) ==> f.id.Some?)
  }

  // ------------------------------------------------------------------- the adapter

  class DiscordAdapter {
    const bot: DiscordBot
    const cache: MessageCachingService
    /** The conversation reference of each user the bot has written to, by user id. */
    var activeConversations: map<Snowflake, ConversationReference>
    /** When each user last had a typing activity passed on. */
    var userLastTypeTimes: map<Snowflake, Time>
    /** Everything handed to the dialog engine, oldest first. */
    var turns: seq<Turn>
    /** Source of fresh response identifiers. */
    var nextGuid: nat

    ghost predicate Valid()
      reads this, cache
    {
      cache.Valid()
    }

    constructor (bot: DiscordBot, now: Time)
      ensures Valid() && this.bot == bot && fresh(cache)
      ensures cache.messages == map[] && cache.sent == map[] && cache.received == map[] && cache.lastPurge == now
      ensures activeConversations == map[] && userLastTypeTimes == map[] && turns == []
    {
      this.bot := bot;
      cache := new MessageCachingService(now);
      activeConversations := map[];
      userLastTypeTimes := map[];
      turns := [];
      nextGuid := 0;
    }

    /** The account of a Discord user: its id and name, with the bot role exactly when
        the user is the bot itself. */
    function GetChannelAccount(user: User): (r: ChannelAccount)
      ensures r.id == user.id && r.name == user.username
      ensures r.role == BotRole <==> user.id == bot.currentUser.id
    {
      ChannelAccount(user.id, user.username, if user.id == bot.currentUser.id then BotRole else UserRole)
    }

    /** A message activity for the dialog engine built from a Discord message in the
        direct channel with `recipient`. Its text and speech are the message's content,
        or absent when the content is blank (`MessageFactory.Text`); like every new
        message activity it starts with an empty attachment list. */
    method GetMessageToBot(recipient: User, message: Message) returns (a: Activity)
      ensures fresh(a)
      ensures a.kind == Some(MessageType) && a.id == Some(message.id)
      ensures a.text == TextOrNone(message.content) && a.speak == TextOrNone(message.content)
      ensures a.inputHint == Some(AcceptingInput)
      ensures a.from == Some(GetChannelAccount(recipient))
      ensures a.recipient == Some(GetChannelAccount(bot.currentUser))
      ensures a.conversation ==
        if recipient.id in activeConversations
        then Some(ConversationAccount(activeConversations[recipient.id].conversation.id))
        else None
      ensures a.replyToId == None && a.reactionsAdded == None && a.reactionsRemoved == None
      ensures a.suggestedActions == None && a.attachments == Some([])
    {
      a := new Activity();
      a.kind := Some(MessageType);
      a.attachments := Some([]);
      a.text := TextOrNone(message.content);
      a.speak := TextOrNone(message.content);
      a.inputHint := Some(AcceptingInput);
      a.id := Some(message.id);
      a.from := Some(GetChannelAccount(recipient));
      a.recipient := Some(GetChannelAccount(bot.currentUser));
      if recipient.id in activeConversations {
        a.conversation := Some(ConversationAccount(activeConversations[recipient.id].conversation.id));
      }
    }

    // ------------------------------------------------------------ inbound events

    /** A user typing. `user` and `channel` are the resolved user and channel (`None`
        when they could not be resolved); `allowed` is the bot's veto hook. A typing
        activity is passed on only for another user typing in a direct channel whose
        recipient has a conversation, and only when the debounce lets it through; then,
        and only then, the user's typing time becomes `now`. */
    method HandleUserIsTyping(user: Option<User>, channel: Option<Channel>, now: Time, allowed: bool := true)
      modifies this
      ensures activeConversations == old(activeConversations) && nextGuid == old(nextGuid)
      ensures
        var emit := allowed && channel.Some? && channel.value.DMChannel? && user.Some?
          && user.value.id != bot.currentUser.id
          && channel.value.recipient.id in activeConversations
          && TypingDue(if user.value.id in old(userLastTypeTimes) then Some(old(userLastTypeTimes)[user.value.id]) else None, now);
        if emit then
          && userLastTypeTimes == old(userLastTypeTimes)[user.value.id := now]
          && |turns| == |old(turns)| + 1 && turns[..|old(turns)|] == old(turns)
          && turns[|old(turns)|].Process?
          && var a := turns[|old(turns)|].activity;
            && fresh(a)
            && a.kind == Some(Typing)
            && a.from == Some(GetChannelAccount(user.value))
            && a.recipient == Some(GetChannelAccount(bot.currentUser))
            && a.conversation == Some(activeConversations[channel.value.recipient.id].conversation)
        else
          userLastTypeTimes == old(userLastTypeTimes) && turns == old(turns)
    {
      if !allowed {
        return;
      }
      if channel.Some? && channel.value.DMChannel? {
        var dm := channel.value;
        if user.Some? && user.value.id != bot.currentUser.id && dm.recipient.id in activeConversations {
          var u := user.value;
          var conversation := activeConversations[dm.recipient.id];
          var hasTyped := u.id in userLastTypeTimes;
          if !hasTyped || (hasTyped && now - userLastTypeTimes[u.id] >= TypingGap) {
            var activity := new Activity();
            activity.from := Some(GetChannelAccount(u));
            activity.recipient := Some(GetChannelAccount(bot.currentUser));
            activity.kind := Some(Typing);
            activity.conversation := Some(conversation.conversation);
            turns := turns + [Process(activity)];
            userLastTypeTimes := userLastTypeTimes[u.id := now];
          }
        }
      }
    }

    /** A message edited. The activity received for the original message, if it is
        cached, the editor is not the bot and the channel's recipient has a
        conversation, is itself changed to carry the new text as an update and handed
        to the dialog engine again; otherwise nothing happens. */
    method HandleMessageUpdated(beforeId: Snowflake, after: Message, channel: Option<Channel>, allowed: bool := true)
      modifies this, cache.received.Values
      ensures activeConversations == old(activeConversations) && userLastTypeTimes == old(userLastTypeTimes)
      ensures nextGuid == old(nextGuid)
      ensures
        var dispatch := allowed && channel.Some? && channel.value.DMChannel?
          && beforeId in cache.received
          && after.author.id != bot.currentUser.id
          && channel.value.recipient.id in activeConversations;
        if dispatch then
          var a: Activity := cache.received[beforeId];
          && a.text == Some(after.content) && a.kind == Some(MessageUpdate)
          && unchanged(a`id, a`replyToId, a`conversation, a`from, a`recipient, a`speak, a`inputHint)
          && unchanged(a`reactionsAdded, a`reactionsRemoved, a`suggestedActions, a`attachments)
          && (forall b :: b in old(cache.received.Values) && b != a ==> unchanged(b))
          && turns == old(turns) + [Process(a)]
        else
          turns == old(turns) && unchanged(cache.received.Values)
    {
      if !allowed {
        return;
      }
      if channel.Some? && channel.value.DMChannel? {
        var dm := channel.value;
        var oldActivity := cache.GetReceivedMessageActivity(beforeId);
        if oldActivity.Some? && after.author.id != bot.currentUser.id && dm.recipient.id in activeConversations {
          var a := oldActivity.value;
          a.text := Some(after.content);
          a.kind := Some(MessageUpdate);
          turns := turns + [Process(a)];
        }
      }
    }

    /** A message deleted. If the message is cached, was not written by the bot and the
        channel's recipient has a conversation, a delete activity carrying the message's
        id, text and author goes to the dialog engine; the cached message stays. */
    method HandleMessageDeleted(messageId: Snowflake, channel: Option<Channel>, allowed: bool := true)
      modifies this
      ensures activeConversations == old(activeConversations) && userLastTypeTimes == old(userLastTypeTimes)
      ensures nextGuid == old(nextGuid)
      ensures
        var dispatch := allowed && channel.Some? && channel.value.DMChannel?
          && messageId in cache.messages
          && cache.messages[messageId].author.id != bot.currentUser.id
          && channel.value.recipient.id in activeConversations;
        if dispatch then
          var m := cache.messages[messageId];
          && |turns| == |old(turns)| + 1 && turns[..|old(turns)|] == old(turns)
          && turns[|old(turns)|].Process?
          && var a := turns[|old(turns)|].activity;
            && fresh(a)
            && a.kind == Some(MessageDelete)
            && a.id == Some(m.id) && a.text == Some(m.content)
            && a.from == Some(GetChannelAccount(m.author))
            && a.recipient == Some(GetChannelAccount(bot.currentUser))
            && a.conversation == Some(activeConversations[channel.value.recipient.id].conversation)
        else
          turns == old(turns)
    {
      if !allowed {
        return;
      }
      if channel.Some? && channel.value.DMChannel? {
        var dm := channel.value;
        var m := cache.GetUserMessage(messageId);
        if m.Some? && m.value.author.id != bot.currentUser.id && dm.recipient.id in activeConversations {
          var conversation := activeConversations[dm.recipient.id];
          var activity := new Activity();
          activity.from := Some(GetChannelAccount(m.value.author));
          activity.recipient := Some(GetChannelAccount(bot.currentUser));
          activity.kind := Some(MessageDelete);
          activity.conversation := Some(conversation.conversation);
          activity.id := Some(m.value.id);
          activity.text := Some(m.value.content);
          turns := turns + [Process(activity)];
        }
      }
    }

    /** A reaction added to message `messageId` by `reactor`. If the reactor is not the
        bot and has a conversation, a reaction activity naming the emote as added goes
        to the dialog engine. */
    method HandleReactionAdded(messageId: Snowflake, reactor: User, emote: Emote, allowed: bool := true)
      modifies this
      ensures activeConversations == old(activeConversations) && userLastTypeTimes == old(userLastTypeTimes)
      ensures nextGuid == old(nextGuid)
      ensures
        if allowed && reactor.id != bot.currentUser.id && reactor.id in activeConversations then
          && |turns| == |old(turns)| + 1 && turns[..|old(turns)|] == old(turns)
          && turns[|old(turns)|].Process?
          && var a := turns[|old(turns)|].activity;
            && fresh(a)
            && a.kind == Some(MessageReaction)
            && a.id == Some(messageId) && a.replyToId == Some(messageId)
            && a.conversation == Some(activeConversations[reactor.id].conversation)
            && a.from == Some(GetChannelAccount(reactor))
            && a.reactionsAdded == Some([Reaction(emote.name)]) && a.reactionsRemoved == None
        else
          turns == old(turns)
    {
      if !allowed {
        return;
      }
      if !(reactor.id != bot.currentUser.id && reactor.id in activeConversations) {
        return;
      }
      var conversation := activeConversations[reactor.id];
      var activity := new Activity();
      activity := Extensions.CreateMessageReactionActivity(activity, messageId, conversation.conversation, Some(GetChannelAccount(reactor)));
      activity := Extensions.SetAddedReaction(activity, emote);
      turns := turns + [Process(activity)];
    }

    /** A reaction removed from message `messageId` by `reactor`; the mirror image of
        `HandleReactionAdded`. */
    method HandleReactionRemoved(messageId: Snowflake, reactor: User, emote: Emote, allowed: bool := true)
      modifies this
      ensures activeConversations == old(activeConversations) && userLastTypeTimes == old(userLastTypeTimes)
      ensures nextGuid == old(nextGuid)
      ensures
        if allowed && reactor.id != bot.currentUser.id && reactor.id in activeConversations then
          && |turns| == |old(turns)| + 1 && turns[..|old(turns)|] == old(turns)
          && turns[|old(turns)|].Process?
          && var a := turns[|old(turns)|].activity;
            && fresh(a)
            && a.kind == Some(MessageReaction)
            && a.id == Some(messageId) && a.replyToId == Some(messageId)
            && a.conversation == Some(activeConversations[reactor.id].conversation)
            && a.from == Some(GetChannelAccount(reactor))
            && a.reactionsRemoved == Some([Reaction(emote.name)]) && a.reactionsAdded == None
        else
          turns == old(turns)
    {
      if !allowed {
        return;
      }
      if !(reactor.id != bot.currentUser.id && reactor.id in activeConversations) {
        return;
      }
      var conversation := activeConversations[reactor.id];
      var activity := new Activity();
      activity := Extensions.CreateMessageReactionActivity(activity, messageId, conversation.conversation, Some(GetChannelAccount(reactor)));
      activity := Extensions.SetRemovedReaction(activity, emote);
      turns := turns + [Process(activity)];
    }

    /** A message received: a message from a user who is not a bot, in a direct
        channel, continues or starts that user's conversation. (The correlation cache
        handles the same event on its own.) */
    method HandleMessageReceived(message: Message, allowed: bool := true)
      requires Valid()
      modifies this, cache
      ensures Valid()
      ensures activeConversations == old(activeConversations) && userLastTypeTimes == old(userLastTypeTimes)
      ensures nextGuid == old(nextGuid)
      ensures cache.messages == old(cache.messages) && cache.sent == old(cache.sent)
      ensures cache.lastPurge == old(cache.lastPurge)
      ensures !(allowed && !message.author.isBot && message.channel.DMChannel?) ==>
        turns == old(turns) && cache.received == old(cache.received)
      ensures allowed && !message.author.isBot && message.channel.DMChannel? ==>
        ContinuedOrStarted(old(turns), old(cache.received), message.channel.recipient, message)
    {
      if !allowed {
        return;
      }
      if !message.author.isBot && message.channel.DMChannel? {
        CreateOrContinueDiscordConversationAsync(message.channel.recipient, message);
      }
    }

    /** The outcome of continuing or starting a conversation, relative to the turns and
        received activities before: with a conversation, one new message activity for
        the message (no input hint, conversation set) is cached under the message id
        and handed to the dialog engine; without one, the conversation start is handed
        over and nothing is cached. */
    ghost predicate ContinuedOrStarted(turns0: seq<Turn>, received0: map<Snowflake, Activity>, recipient: User, message: Message)
      reads this, cache, if |turns| > 0 && turns[|turns| - 1].Process? then {turns[|turns| - 1].activity} else {}
    {
      if recipient.id in activeConversations then
        && |turns| == |turns0| + 1 && turns[..|turns0|] == turns0
        && turns[|turns0|].Process?
        && var a := turns[|turns0|].activity;
          && a.kind == Some(MessageType) && a.id == Some(message.id)
          && a.text == TextOrNone(message.content) && a.inputHint == None
          && a.from == Some(GetChannelAccount(recipient))
          && a.conversation == Some(ConversationAccount(activeConversations[recipient.id].conversation.id))
          && cache.received == received0[message.id := a]
      else
        turns == turns0 + [StartConversation(recipient)] && cache.received == received0
    }

    method CreateOrContinueDiscordConversationAsync(recipient: User, message: Message)
      requires Valid()
      modifies this, cache
      ensures Valid()
      ensures activeConversations == old(activeConversations) && userLastTypeTimes == old(userLastTypeTimes)
      ensures nextGuid == old(nextGuid)
      ensures cache.messages == old(cache.messages) && cache.sent == old(cache.sent)
      ensures cache.lastPurge == old(cache.lastPurge)
      ensures ContinuedOrStarted(old(turns), old(cache.received), recipient, message)
      ensures recipient.id in activeConversations ==> fresh(turns[|turns| - 1].activity)
    {
      if recipient.id in activeConversations {
        var messageActivity := GetMessageToBot(recipient, message);
        messageActivity.inputHint := None;
        cache.AddReceivedMessageActivity(messageActivity);
        turns := turns + [Process(messageActivity)];
      } else {
        turns := turns + [StartConversation(recipient)];
      }
    }

    /** A button clicked on message `message` in `channel`. In a direct channel the click
        becomes a message activity built as for a received message (`GetMessageToBot`)
        whose text is the button's custom id; first the message's components are all
        replaced by one row: its first row's buttons restyled and disabled. A message
        without rows stops the handler before anything is sent or handed over. */
    method HandleButtonClicked(channel: Channel, message: Message, customId: string, allowed: bool := true)
      modifies this, bot`calls
      ensures activeConversations == old(activeConversations) && userLastTypeTimes == old(userLastTypeTimes)
      ensures nextGuid == old(nextGuid)
      ensures
        if allowed && channel.DMChannel? && |message.rows| > 0 then
          && bot.calls == old(bot.calls) + [UpdateButtons(message.id, RestyledRow(message.rows, customId).value)]
          && |turns| == |old(turns)| + 1 && turns[..|old(turns)|] == old(turns)
          && turns[|old(turns)|].Process?
          && var a := turns[|old(turns)|].activity;
            && fresh(a)
            && a.kind == Some(MessageType) && a.text == Some(customId) && a.id == Some(message.id)
            && a.speak == TextOrNone(message.content) && a.inputHint == Some(AcceptingInput)
            && a.from == Some(GetChannelAccount(channel.recipient))
            && a.recipient == Some(GetChannelAccount(bot.currentUser))
            && a.conversation ==
                 if channel.recipient.id in activeConversations
                 then Some(ConversationAccount(activeConversations[channel.recipient.id].conversation.id))
                 else None
        else
          bot.calls == old(bot.calls) && turns == old(turns)
    {
      if !allowed {
        return;
      }
      if channel.DMChannel? {
        var activity := GetMessageToBot(channel.recipient, message);
        activity.text := Some(customId);
        var row := RebuildButtonRow(message.rows, customId);
        if row.None? {
          return;
        }
        bot.calls := bot.calls + [UpdateButtons(message.id, row.value)];
        turns := turns + [Process(activity)];
      }
    }

    // ---------------------------------------------------------- outbound activities

    /** Sends the dialog engine's activities. When the bot is not connected nothing
        happens and the call fails. Otherwise each activity is sent according to its
        kind (`SendActivity`) and acknowledged, kinds the adapter does not handle
        included, by a response with a fresh identifier: one response per activity, in
        order, all identifiers distinct. `replies[i]` is the message Discord creates
        for a message sent on behalf of `activities[i]`. */
    method SendActivitiesAsync(activities: array<Activity>, replies: seq<Message>)
      returns (r: Result<array<ResourceResponse>>)
      requires Valid()
      requires |replies| == activities.Length
      requires bot.IsConnected() ==> forall i :: 0 <= i < activities.Length ==> SendReady(activities[i].Fields())
      modifies this`activeConversations, this`nextGuid, bot`calls, cache
      modifies set i | 0 <= i < activities.Length && activities[i].kind == Some(MessageType) :: activities[i]`id
      ensures Valid()
      ensures !old(bot.IsConnected()) ==>
        && r == Err(NotConnected) && unchanged(this, bot, cache)
        && forall j :: 0 <= j < activities.Length ==> activities[j].id == old(activities[j].id)
      ensures old(bot.IsConnected()) ==>
        && r.Ok? && fresh(r.value) && r.value.Length == activities.Length
        && (forall i :: 0 <= i < activities.Length ==> r.value[i] == ResourceResponse(Guid(old(nextGuid) + i)))
        && (forall i, j :: 0 <= i < j < activities.Length ==> r.value[i] != r.value[j])
        && nextGuid == old(nextGuid) + activities.Length
        && SentBatch(old(activities[..]), replies, old(Snapshots(activities[..])), old(bot.calls), old(activeConversations))
        && cache.lastPurge == old(cache.lastPurge)
    {
      if !bot.IsConnected() {
        return Err(NotConnected);
      }
      SendEach(activities, replies);
      var resps := Acknowledge(activities.Length);
      return Ok(resps);
    }

    /** The acknowledgements of a batch of `n` activities: one response per activity,
        in order, each with a fresh identifier drawn from the adapter's counter. */
    method Acknowledge(n: nat) returns (resps: array<ResourceResponse>)
      modifies this`nextGuid
      ensures fresh(resps) && resps.Length == n
      ensures forall i :: 0 <= i < n ==> resps[i] == ResourceResponse(Guid(old(nextGuid) + i))
      ensures forall i, j :: 0 <= i < j < n ==> resps[i] != resps[j]
      ensures nextGuid == old(nextGuid) + n
    {
      var firstGuid := nextGuid;
      resps := new ResourceResponse[n](j => ResourceResponse(Guid(firstGuid + j)));
      nextGuid := nextGuid + n;
    }

    /** What the send loop knows after sending the first `i` activities of the batch
        `acts`, whose field values when it started were `before`: the calls made so far
        are those of the first `i` activities, in order; and when no activity occurs
        twice, the activities still to send keep their ids, each message sent took its
        reply's id, and the registry holds the first `i` activities' references. */
    ghost predicate SentPrefix(acts: seq<Activity>, replies: seq<Message>, before: seq<ActivityFields>, i: nat,
                               distinct: bool, log0: seq<GatewayCall>, registry0: map<Snowflake, ConversationReference>)
      reads this`activeConversations, bot`calls, acts
    {
      && i <= |acts| == |before| == |replies|
      && bot.calls == log0 + BatchCalls(before[..i], bot.currentUser.id)
      && (distinct ==> forall j :: i <= j < |acts| ==> acts[j].id == before[j].id)
      && (distinct ==> forall j :: 0 <= j < i && before[j].kind == Some(MessageType) ==> acts[j].id == Some(replies[j].id))
      && (distinct ==> activeConversations == RegistryAfter(registry0, before[..i]))
    }

    /** The effect of sending the whole batch `acts`, whose field values when it
        started were `before`, on a calls log that was `log0` and a registry that was
        `registry0`: the calls made are those of each activity in turn; and when no
        activity occurs twice, each message activity took its reply's id and the
        registry is the old one with each message's reference registered in turn. */
    ghost predicate SentBatch(acts: seq<Activity>, replies: seq<Message>, before: seq<ActivityFields>,
                              log0: seq<GatewayCall>, registry0: map<Snowflake, ConversationReference>)
      reads this`activeConversations, bot`calls, acts
    {
      && |acts| == |before| == |replies|
      && bot.calls == log0 + BatchCalls(before, bot.currentUser.id)
      && (DistinctObjects(acts) ==>
            && (forall j :: 0 <= j < |acts| && before[j].kind == Some(MessageType) ==> acts[j].id == Some(replies[j].id))
            && activeConversations == RegistryAfter(registry0, before))
    }

    /** Before the loop has sent anything, what it knows holds trivially. */
    lemma SentPrefixStart(acts: seq<Activity>, replies: seq<Message>, before: seq<ActivityFields>, distinct: bool,
                          log0: seq<GatewayCall>, registry0: map<Snowflake, ConversationReference>)
      requires before == Snapshots(acts) && |replies| == |acts|
      requires bot.calls == log0 && activeConversations == registry0
      ensures SentPrefix(acts, replies, before, 0, distinct, log0, registry0)
    {
      assert before[..0] == [];
    }

    /** Once the loop has sent every activity, what it knows is the effect of the batch. */
    lemma SentPrefixComplete(acts: seq<Activity>, replies: seq<Message>, before: seq<ActivityFields>,
                             log0: seq<GatewayCall>, registry0: map<Snowflake, ConversationReference>)
      requires SentPrefix(acts, replies, before, |acts|, DistinctObjects(acts), log0, registry0)
      ensures SentBatch(acts, replies, before, log0, registry0)
    {
      assert before[..|acts|] == before;
    }

    /** The send loop: each activity in order, as `SendActivity` says. */
    method SendEach(activities: array<Activity>, replies: seq<Message>)
      requires Valid()
      requires |replies| == activities.Length
      requires forall i :: 0 <= i < activities.Length ==> SendReady(activities[i].Fields())
      modifies this`activeConversations, bot`calls, cache
      modifies set i | 0 <= i < activities.Length && activities[i].kind == Some(MessageType) :: activities[i]`id
      ensures Valid()
      ensures SentBatch(old(activities[..]), replies, old(Snapshots(activities[..])), old(bot.calls), old(activeConversations))
      ensures cache.lastPurge == old(cache.lastPurge)
    {
      var n := activities.Length;
      ghost var acts := activities[..];
      ghost var before := Snapshots(acts);
      ghost var distinct := DistinctObjects(acts);
      assert forall j :: 0 <= j < n ==> SendReady(before[j]);
      SentPrefixStart(acts, replies, before, distinct, old(bot.calls), old(activeConversations));
      var i := 0;
      while i < n
        invariant 0 <= i <= n
        invariant Valid()
        invariant SentPrefix(acts, replies, before, i, distinct, old(bot.calls), old(activeConversations))
        invariant cache.lastPurge == old(cache.lastPurge)
      {
        SendStep(activities, replies, i, acts, before, distinct, old(bot.calls), old(activeConversations));
        i := i + 1;
      }
      SentPrefixComplete(acts, replies, before, old(bot.calls), old(activeConversations));
    }

    /** One pass of the send loop: sends `activities[i]`, whose field values when the
        batch started were `before[i]` (since then only the ids of message activities
        can have changed), and extends what the loop knows from the first `i` sends to
        the first `i + 1`. */
    method SendStep(activities: array<Activity>, replies: seq<Message>, i: nat, ghost acts: seq<Activity>,
                    ghost before: seq<ActivityFields>, ghost distinct: bool,
                    ghost log0: seq<GatewayCall>, ghost registry0: map<Snowflake, ConversationReference>)
      requires Valid()
      requires acts == activities[..] && i < |acts|
      requires SentPrefix(acts, replies, before, i, distinct, log0, registry0)
      requires SendReady(before[i])
      requires acts[i].Fields() == before[i].(id := acts[i].id)
      requires before[i].kind != Some(MessageType) ==> acts[i].id == before[i].id
      requires distinct ==> DistinctObjects(acts)
      modifies this`activeConversations, bot`calls, cache
      modifies (if acts[i].kind == Some(MessageType) then {acts[i]} else {})`id
      ensures Valid()
      ensures SentPrefix(acts, replies, before, i + 1, distinct, log0, registry0)
      ensures cache.lastPurge == old(cache.lastPurge)
    {
      var a := activities[i];
      ghost var calls1, registry1 := bot.calls, activeConversations;
      SendActivity(a, replies[i]);
      if before[i].kind == Some(MessageType) {
        SendCallsIgnoreMessageId(before[i], old(a.id), bot.currentUser.id);
      }
      BatchCallsStep(log0, calls1, bot.calls, before, i, bot.currentUser.id);
      if distinct {
        assert old(a.Fields()) == before[i];
        RegistryStep(registry0, registry1, before, i);
      }
    }

    /** One activity of the send loop, by kind. A message goes to the user of its
        conversation (text, else speech; its buttons; its files), the user's registry
        entry is overwritten with the activity's reference, the activity takes the new
        message's id, and both the message and the activity are cached. A reaction
        activity adds and removes the bot's reactions on the message it names; a typing
        activity shows the typing indicator; an end-of-conversation activity ends the
        conversation. Any other kind is ignored. */
    method SendActivity(a: Activity, reply: Message)
      requires Valid() && SendReady(a.Fields())
      modifies this`activeConversations, bot`calls, cache, (if a.kind == Some(MessageType) then {a} else {})`id
      ensures Valid()
      ensures bot.calls == old(bot.calls) + SendCalls(old(a.Fields()), bot.currentUser.id)
      ensures cache.lastPurge == old(cache.lastPurge)
      ensures old(a.kind) == Some(MessageType) ==>
        var userId := old(a.conversation).value.id;
        && activeConversations == old(activeConversations)[userId :=
             ConversationReference(old(a.id), old(a.from), old(a.recipient), old(a.conversation).value)]
        && a.id == Some(reply.id)
        && cache.messages == (if reply.channel.DMChannel? then old(cache.messages)[reply.id := reply] else old(cache.messages))
        && cache.sent == old(cache.sent)[reply.id := a]
        && cache.received == old(cache.received)
      ensures old(a.kind) in {Some(MessageReaction), Some(Typing)} ==>
        activeConversations == old(activeConversations) && unchanged(cache)
      ensures old(a.kind) == Some(EndOfConversation) ==>
        EndedConversation(old(a.conversation).value.id, old(a.text), old(bot.calls), old(cache.messages), old(cache.sent), old(cache.received))
        && activeConversations == old(activeConversations)
      ensures old(a.kind) !in {Some(MessageType), Some(MessageReaction), Some(Typing), Some(EndOfConversation)} ==>
        activeConversations == old(activeConversations) && unchanged(cache)
    {
      if a.kind == Some(MessageType) {
        var userId := a.conversation.value.id;
        var files := GetFilesFromAttachments(a.attachments);
        var buttons := CreateSuggestedActionButtons(a.suggestedActions);
        var text := if a.text.Some? then a.text else a.speak;
        var sentMessage := bot.SendMessageToUser(userId, text, buttons, files, reply);
        activeConversations := activeConversations[userId := ConversationReferenceOf(a)];
        a.id := Some(sentMessage.id);
        cache.AddDiscordBotMessage(sentMessage);
        cache.AddSentMessageActivity(a);
      } else if a.kind == Some(MessageReaction) {
        AddAndRemoveReactionsFromMessageAsync(a);
      } else if a.kind == Some(Typing) {
        bot.calls := bot.calls + [TriggerTyping(a.conversation.value.id)];
      } else if a.kind == Some(EndOfConversation) {
        EndConversationAsync(a, reply);
      }
    }

    /** Adds each of the activity's added reactions, then removes each of its removed
        reactions (as the activity's sender, or the bot when it has none), on the
        message the activity names in the user's direct channel. */
    method AddAndRemoveReactionsFromMessageAsync(a: Activity)
      requires a.conversation.Some? && a.id.Some?
      modifies bot`calls
      ensures bot.calls == old(bot.calls)
        + AddReactionCalls(a.conversation.value.id, a.id.value, a.reactionsAdded.GetOr([]))
        + RemoveReactionCalls(a.conversation.value.id, a.id.value, a.reactionsRemoved.GetOr([]),
            if a.from.Some? then a.from.value.id else bot.currentUser.id)
    {
      var userId := a.conversation.value.id;
      var messageId := a.id.value;
      var added := a.reactionsAdded.GetOr([]);
      var i := 0;
      while i < |added|
        invariant 0 <= i <= |added|
        invariant bot.calls == old(bot.calls) + AddReactionCalls(userId, messageId, added[..i])
      {
        assert AddReactionCalls(userId, messageId, added[..i + 1])
          == AddReactionCalls(userId, messageId, added[..i]) + [AddReaction(userId, messageId, added[i].kind)];
        bot.calls := bot.calls + [AddReaction(userId, messageId, added[i].kind)];
        i := i + 1;
      }
      assert added[..i] == added;
      var reacterId := if a.from.Some? then a.from.value.id else bot.currentUser.id;
      var removed := a.reactionsRemoved.GetOr([]);
      var afterAdds := bot.calls;
      i := 0;
      while i < |removed|
        invariant 0 <= i <= |removed|
        invariant bot.calls == afterAdds + RemoveReactionCalls(userId, messageId, removed[..i], reacterId)
      {
        assert RemoveReactionCalls(userId, messageId, removed[..i + 1], reacterId)
          == RemoveReactionCalls(userId, messageId, removed[..i], reacterId)
             + [RemoveReaction(userId, messageId, removed[i].kind, reacterId)];
        bot.calls := bot.calls + [RemoveReaction(userId, messageId, removed[i].kind, reacterId)];
        i := i + 1;
      }
      assert removed[..i] == removed;
    }

    /** The state after ending the conversation with `userId`: the closing text (the
        activity's, or the default) was sent, and the user's messages and activities
        are gone from all three stores. */
    ghost predicate EndedConversation(
      userId: Snowflake, text: Option<string>, calls0: seq<GatewayCall>,
      messages0: map<Snowflake, Message>, sent0: map<Snowflake, Activity>, received0: map<Snowflake, Activity>)
      reads this, bot, cache, sent0.Values, received0.Values
      requires AllDirect(messages0)
    {
      && bot.calls == calls0 + [SendMessage(userId, Some(text.GetOr(DefaultEndText)), None)]
      && cache.messages == ClearedMessages(messages0, userId)
      && cache.sent == ClearedActivities(sent0, userId)
      && cache.received == ClearedActivities(received0, userId)
    }

    /** Ends the conversation: sends the closing text, then clears the user from the
        cache. The user's registry entry is kept. */
    method EndConversationAsync(a: Activity, reply: Message)
      requires Valid() && a.conversation.Some?
      modifies bot`calls, cache
      ensures Valid()
      ensures EndedConversation(a.conversation.value.id, a.text, old(bot.calls), old(cache.messages), old(cache.sent), old(cache.received))
      ensures cache.lastPurge == old(cache.lastPurge)
    {
      var userId := a.conversation.value.id;
      var _ := bot.SendMessageToUser(userId, Some(a.text.GetOr(DefaultEndText)), reply := reply);
      cache.ClearCacheForUser(userId);
    }
  }
}

=== FILE: bot.dfy ===
/** The bot's connection to Discord: whether it may send, how Discord's log severities
    become log levels, and the calls it makes on the gateway, which are recorded in
    order rather than performed. */
module Bot {
  import opened Schema

  /** Discord's log severities; `Unnamed` is any other value of the enumeration. */
  datatype LogSeverity = Critical | Error | Warning | Info | Verbose | Debug | Unnamed(code: int)

  /** The host's log levels, least to most severe, then the level that logs nothing. */
  datatype LogLevel = TraceLevel | DebugLevel | InformationLevel | WarningLevel | ErrorLevel | CriticalLevel | NoneLevel

  /** The log level a Discord log line is written at. Every severity maps to a level that
      is written (never the silent level); each named severity except Info and Verbose
      keeps its own name, Info and any unnamed value become Information, and Verbose
      becomes Trace. */
  function MapLogLevel(severity: LogSeverity): (r: LogLevel)
    ensures r != NoneLevel
    ensures r == CriticalLevel <==> severity == Critical
    ensures r == ErrorLevel <==> severity == Error
    ensures r == WarningLevel <==> severity == Warning
    ensures r == DebugLevel <==> severity == Debug
    ensures r == TraceLevel <==> severity == Verbose
    ensures r == InformationLevel <==> severity == Info || severity.Unnamed?
  {
    match severity
    case Critical => CriticalLevel
    case Error => ErrorLevel
    case Warning => WarningLevel
    case Info => InformationLevel
    case Verbose => TraceLevel
    case Debug => DebugLevel
    case Unnamed(_) => InformationLevel
  }

  datatype ConnectionState = Disconnected | Connecting | Connected | Disconnecting

  /** A call made on the Discord gateway. Fetching the user and opening the direct
      channel that precede a send are folded into the call that needs them.
      `UpdateButtons(m, b)` sets the components of message `m` to the one button row
      `b`, dropping every component the message had before. */
  datatype GatewayCall =
    | Login(token: string)
    | StartClient
    | StopClient
    | Logout
    | SendMessage(userId: Snowflake, text: Option<string>, components: Option<seq<Button>>)
    | SendFiles(userId: Snowflake, files: seq<FileAttachment>, text: Option<string>, components: Option<seq<Button>>)
    | AddReaction(userId: Snowflake, messageId: Snowflake, emote: string)
    | RemoveReaction(userId: Snowflake, messageId: Snowflake, emote: string, reacterId: Snowflake)
    | TriggerTyping(userId: Snowflake)
    | UpdateButtons(messageId: Snowflake, buttons: seq<Button>)

  datatype StartResult = Started | TokenMissing

  /** Whether an attachment list makes a send go out as a plain message (no list or an
      empty one) rather than as an upload of files. */
  predicate PlainSend(attachments: Option<seq<FileAttachment>>) {
    attachments.None? || |attachments.value| == 0
  }

  class DiscordBot {
    const token: Option<string>
    /** The bot's own Discord user. */
    const currentUser: User
    /** Set once the gateway has reported Ready; never reset. */
    var isInitialized: bool
    /** The gateway client's connection state, which the client alone changes. */
    var connectionState: ConnectionState
    var eventsRegistered: bool
    /** Every gateway call made so far, oldest first. */
    var calls: seq<GatewayCall>

    constructor (token: Option<string>, currentUser: User)
      ensures this.token == token && this.currentUser == currentUser
      ensures !isInitialized && connectionState == Disconnected && !eventsRegistered && calls == []
      ensures !IsConnected()
    {
      this.token := token;
      this.currentUser := currentUser;
      isInitialized := false;
      connectionState := Disconnected;
      eventsRegistered := false;
      calls := [];
    }

    /** The bot may send: Ready has been seen and the client is connected. */
    predicate IsConnected()
      reads this
    {
      isInitialized && connectionState == Connected
    }

    /** The gateway's Ready event. */
    method HandleReady()
      modifies this`isInitialized
      ensures isInitialized
      ensures IsConnected() <==> connectionState == Connected
    {
      isInitialized := true;
    }

    /** The gateway client moving to another connection state (the client's own
        lifecycle, outside the bot). It never clears `isInitialized`. */
    method ClientStateChanged(state: ConnectionState)
      modifies this`connectionState
      ensures connectionState == state
      ensures IsConnected() <==> isInitialized && state == Connected
    {
      connectionState := state;
    }

    /** Starting the hosted service: a missing or empty token is rejected before any
        event is registered or any call is made; otherwise the bot registers its event
        handlers, logs in and starts the client. */
    method StartAsync() returns (r: StartResult)
      modifies this`eventsRegistered, this`calls
      ensures token.None? || token.value == [] ==> r == TokenMissing && unchanged(this)
      ensures token.Some? && token.value != [] ==>
        r == Started && eventsRegistered && calls == old(calls) + [Login(token.value), StartClient]
    {
      if token.None? || token.value == [] {
        return TokenMissing;
      }
      eventsRegistered := true;
      calls := calls + [Login(token.value), StartClient];
      r := Started;
    }

    method StopAsync()
      modifies this`calls
      ensures calls == old(calls) + [StopClient, Logout]
    {
      calls := calls + [StopClient, Logout];
    }

    /** Sends a direct message to a user: a plain message when there are no attachments,
        an upload of the files otherwise. `reply` is the message Discord creates. */
    method SendMessageToUser(
      userId: Snowflake,
      text: Option<string>,
      components: Option<seq<Button>> := None,
      attachments: Option<seq<FileAttachment>> := None,
      reply: Message)
      returns (sentMessage: Message)
      modifies this`calls
      ensures sentMessage == reply
      ensures PlainSend(attachments) ==> calls == old(calls) + [SendMessage(userId, text, components)]
      ensures !PlainSend(attachments) ==>
        calls == old(calls) + [SendFiles(userId, attachments.value, text, components)]
    {
      if attachments.None? || |attachments.value| == 0 {
        calls := calls + [SendMessage(userId, text, components)];
      } else {
        calls := calls + [SendFiles(userId, attachments.value, text, components)];
      }
      sentMessage := reply;
    }
  }
}

=== FILE: caching.dfy ===
/** The correlation cache: Discord direct messages by message id, and the activities
    the bot sent and received by activity id, so that later edits, deletes and
    end-of-conversation clean-ups can find what they refer to. */
module Caching {
  import opened Schema

  /** How long the message store may go without a purge: one hour, in milliseconds. */
  const PurgeInterval: int := 3_600_000

  /** The receive handler stores a message exactly when it is a user message posted in a
      direct-message channel by an author that is not a bot. */
  predicate CachedOnReceive(m: Message) {
    m.channel.DMChannel? && m.isUserMessage && !m.author.isBot
  }

  /** A purge is due when strictly more than the interval has passed since the last one. */
  predicate PurgeDue(lastPurge: Time, now: Time) {
    now - lastPurge > PurgeInterval
  }

  /** The store after a purge with the given cutoff: a message stays exactly when its
      timestamp, in whole Unix seconds, is not below the cutoff's. */
  function Purged(messages: map<Snowflake, Message>, cutoff: Time): (r: map<Snowflake, Message>)
    ensures r.Keys <= messages.Keys
    ensures forall k :: k in r ==> r[k] == messages[k]
    ensures forall k :: k in messages ==>
      (k in r <==> UnixSeconds(messages[k].timestamp) >= UnixSeconds(cutoff))
  {
    map k | k in messages && !(UnixSeconds(messages[k].timestamp) < UnixSeconds(cutoff)) :: messages[k]
  }

  /** Every stored message was posted in a direct-message channel. */
  ghost predicate AllDirect(messages: map<Snowflake, Message>) {
    forall k :: k in messages ==> messages[k].channel.DMChannel?
  }

  /** A direct message belongs to a user when that user wrote it or received it. */
  predicate AttributedTo(m: Message, userId: Snowflake)
    requires m.channel.DMChannel?
  {
    m.author.id == userId || m.channel.recipient.id == userId
  }

  /** The message store after clearing a user: exactly the messages attributed to the
      user are gone, every other message stays as it was. */
  function ClearedMessages(messages: map<Snowflake, Message>, userId: Snowflake): (r: map<Snowflake, Message>)
    requires AllDirect(messages)
    ensures r.Keys <= messages.Keys && AllDirect(r)
    ensures forall k :: k in r ==> r[k] == messages[k]
    ensures forall k :: k in messages ==> (k in r <==> !AttributedTo(messages[k], userId))
  {
    map k | k in messages && !AttributedTo(messages[k], userId) :: messages[k]
  }

  /** An activity store after clearing a user: exactly the activities whose conversation
      id is the user's id are gone, every other activity stays. */
  function ClearedActivities(activities: map<Snowflake, Activity>, userId: Snowflake): (r: map<Snowflake, Activity>)
    reads activities.Values
    ensures r.Keys <= activities.Keys
    ensures forall k :: k in r ==> r[k] == activities[k]
    ensures forall k :: k in activities ==> (k in r <==> activities[k].ConversationId() != Some(userId))
  {
    map k | k in activities && activities[k].ConversationId() != Some(userId) :: activities[k]
  }

  class MessageCachingService {
    /** Direct messages, by Discord message id. */
    var messages: map<Snowflake, Message>
    /** Activities the bot sent to users, by activity id. */
    var sent: map<Snowflake, Activity>
    /** Activities users sent to the bot, by activity id. */
    var received: map<Snowflake, Activity>
    var lastPurge: Time

    /** Each message is stored under its own id, and only direct messages are stored
        (which is what lets the per-user clear read every message's recipient). */
    ghost predicate Valid()
      reads this
    {
      AllDirect(messages) && forall k :: k in messages ==> messages[k].id == k
    }

    constructor (now: Time)
      ensures Valid()
      ensures messages == map[] && sent == map[] && received == map[] && lastPurge == now
    {
      messages, sent, received := map[], map[], map[];
      lastPurge := now;
    }

    /** The gateway's message-received event: store the message if it qualifies, then
        purge if a purge is due, with the current time as the cutoff. */
    method HandleMessageReceived(message: Message, now: Time)
      requires Valid()
      modifies this
      ensures Valid()
      ensures var stored := if CachedOnReceive(message) then old(messages)[message.id := message] else old(messages);
        if PurgeDue(old(lastPurge), now)
        then messages == Purged(stored, now) && lastPurge == now
        else messages == stored && lastPurge == old(lastPurge)
      ensures sent == old(sent) && received == old(received)
    {
      if message.channel.DMChannel? && message.isUserMessage && !message.author.isBot {
        messages := messages[message.id := message];
      }
      if now - lastPurge > PurgeInterval {
        PurgeOldMessages(now, now);
      }
    }

    /** Stores a message the bot sent, if it was sent in a direct-message channel. */
    method AddDiscordBotMessage(message: Message)
      requires Valid()
      modifies this
      ensures Valid()
      ensures messages == if message.channel.DMChannel? then old(messages)[message.id := message] else old(messages)
      ensures sent == old(sent) && received == old(received) && lastPurge == old(lastPurge)
    {
      if message.channel.DMChannel? {
        messages := messages[message.id := message];
      }
    }

    method GetUserMessage(messageId: Snowflake) returns (r: Option<Message>)
      ensures r.Some? <==> messageId in messages
      ensures r.Some? ==> r.value == messages[messageId]
    {
      if messageId !in messages {
        return None;
      }
      return Some(messages[messageId]);
    }

    /** Removes every message whose timestamp, in whole Unix seconds, is below that of
        `olderThan`, and records `now` as the time of the purge. */
    method PurgeOldMessages(olderThan: Time, now: Time)
      requires Valid()
      modifies this
      ensures Valid()
      ensures messages == Purged(old(messages), olderThan) && lastPurge == now
      ensures sent == old(sent) && received == old(received)
    {
      var cutoff := UnixSeconds(olderThan);
      var stale := set k | k in messages && UnixSeconds(messages[k].timestamp) < cutoff;
      var rest := stale;
      while rest != {}
        invariant rest <= stale
        invariant messages == old(messages) - (stale - rest)
        invariant Valid()
        invariant sent == old(sent) && received == old(received) && lastPurge == old(lastPurge)
        decreases rest
      {
        var k :| k in rest;
        messages := messages - {k};
        rest := rest - {k};
      }
      assert messages.Keys == Purged(old(messages), olderThan).Keys;
      lastPurge := now;
    }

    /** Stores (or replaces) a sent activity under its id. */
    method AddSentMessageActivity(activity: Activity)
      requires activity.id.Some?
      modifies this
      ensures sent == old(sent)[activity.id.value := activity]
      ensures messages == old(messages) && received == old(received) && lastPurge == old(lastPurge)
    {
      sent := sent[activity.id.value := activity];
    }

    /** Stores (or replaces) a received activity under its id. */
    method AddReceivedMessageActivity(activity: Activity)
      requires activity.id.Some?
      modifies this
      ensures received == old(received)[activity.id.value := activity]
      ensures messages == old(messages) && sent == old(sent) && lastPurge == old(lastPurge)
    {
      received := received[activity.id.value := activity];
    }

    method GetSentMessageActivity(activityId: Snowflake) returns (r: Option<Activity>)
      ensures r.Some? <==> activityId in sent
      ensures r.Some? ==> r.value == sent[activityId]
    {
      if activityId !in sent {
        return None;
      }
      return Some(sent[activityId]);
    }

    method GetReceivedMessageActivity(activityId: Snowflake) returns (r: Option<Activity>)
      ensures r.Some? <==> activityId in received
      ensures r.Some? ==> r.value == received[activityId]
    {
      if activityId !in received {
        return None;
      }
      return Some(received[activityId]);
    }

    /** Removes from all three stores everything attributed to the user: messages the
        user wrote or received, and activities in the user's conversation. The three
        scans touch disjoint stores and all have finished when this returns. */
    method ClearCacheForUser(userId: Snowflake)
      requires Valid()
      modifies this
      ensures Valid()
      ensures messages == ClearedMessages(old(messages), userId)
      ensures sent == ClearedActivities(old(sent), userId)
      ensures received == ClearedActivities(old(received), userId)
      ensures lastPurge == old(lastPurge)
    {
      RemoveUserMessages(userId);
      RemoveUserSentActivities(userId);
      RemoveUserReceivedActivities(userId);
    }

    /** The first scan of the per-user clear: the message store. */
    method RemoveUserMessages(userId: Snowflake)
      requires Valid()
      modifies this
      ensures Valid()
      ensures messages == ClearedMessages(old(messages), userId)
      ensures sent == old(sent) && received == old(received) && lastPurge == old(lastPurge)
    {
      var toRemove := set k | k in messages && AttributedTo(messages[k], userId);
      var rest := toRemove;
      while rest != {}
        invariant rest <= toRemove
        invariant messages == old(messages) - (toRemove - rest)
        invariant Valid()
        invariant sent == old(sent) && received == old(received) && lastPurge == old(lastPurge)
        decreases rest
      {
        var k :| k in rest;
        messages := messages - {k};
        rest := rest - {k};
      }
      assert messages.Keys == ClearedMessages(old(messages), userId).Keys;
    }

    /** The second scan of the per-user clear: the sent activities. */
    method RemoveUserSentActivities(userId: Snowflake)
      modifies this
      ensures sent == ClearedActivities(old(sent), userId)
      ensures messages == old(messages) && received == old(received) && lastPurge == old(lastPurge)
    {
      var toRemove := set k | k in sent && sent[k].ConversationId() == Some(userId);
      var rest := toRemove;
      while rest != {}
        invariant rest <= toRemove
        invariant sent == old(sent) - (toRemove - rest)
        invariant messages == old(messages) && received == old(received) && lastPurge == old(lastPurge)
        decreases rest
      {
        var k :| k in rest;
        sent := sent - {k};
        rest := rest - {k};
      }
      assert sent.Keys == ClearedActivities(old(sent), userId).Keys;
    }

    /** The third scan of the per-user clear: the received activities. */
    method RemoveUserReceivedActivities(userId: Snowflake)
      modifies this
      ensures received == ClearedActivities(old(received), userId)
      ensures messages == old(messages) && sent == old(sent) && lastPurge == old(lastPurge)
    {
      var toRemove := set k | k in received && received[k].ConversationId() == Some(userId);
      var rest := toRemove;
      while rest != {}
        invariant rest <= toRemove
        invariant received == old(received) - (toRemove - rest)
        invariant messages == old(messages) && sent == old(sent) && lastPurge == old(lastPurge)
        decreases rest
      {
        var k :| k in rest;
        received := received - {k};
        rest := rest - {k};
      }
      assert received.Keys == ClearedActivities(old(received), userId).Keys;
    }
  }

  // ------------------------------------------------------------------ properties

  /** What the purge's cutoff of "now" means: after a purge, every message left was
      stamped in the current second or later, so a purge also evicts messages only a
      second old, well inside the one-hour interval. */
  lemma PurgeLeavesOnlyCurrentSecond(messages: map<Snowflake, Message>, now: Time, m: Message)
    requires m.id in messages && messages[m.id] == m
    ensures m.id in Purged(messages, now) <==> UnixSeconds(m.timestamp) >= UnixSeconds(now)
    ensures m.timestamp == now - 1000 ==> m.id !in Purged(messages, now)
  {
  }

  /** Purging twice with the same cutoff removes nothing more. */
  lemma PurgeIdempotent(messages: map<Snowflake, Message>, cutoff: Time)
    ensures Purged(Purged(messages, cutoff), cutoff) == Purged(messages, cutoff)
  {
    assert Purged(Purged(messages, cutoff), cutoff).Keys == Purged(messages, cutoff).Keys;
  }

  /** Clearing the same user twice removes nothing more, and after a clear nothing
      left in the message store is attributed to the user. */
  lemma ClearMessagesIdempotent(messages: map<Snowflake, Message>, userId: Snowflake)
    requires AllDirect(messages)
    ensures var c := ClearedMessages(messages, userId);
      ClearedMessages(c, userId) == c &&
      forall k :: k in c ==> !AttributedTo(c[k], userId)
  {
    var c := ClearedMessages(messages, userId);
    assert ClearedMessages(c, userId).Keys == c.Keys;
  }

  /** A purge keeps every message that a later store would keep: purging with an
      earlier cutoff never removes a message that a purge with a later cutoff keeps. */
  lemma PurgeMonotone(messages: map<Snowflake, Message>, early: Time, late: Time)
    requires early <= late
    ensures Purged(messages, late).Keys <= Purged(messages, early).Keys
  {
    forall k | k in Purged(messages, late)
      ensures k in Purged(messages, early)
    {
      DivMonotone(early, late);
    }
  }

  lemma DivMonotone(a: int, b: int)
    requires a <= b
    ensures UnixSeconds(a) <= UnixSeconds(b)
  {
  }
}

=== FILE: extensions.dfy ===
/** The fluent activity helpers: each sets fields of the activity it is given and
    returns that same activity. */
module Extensions {
  import opened Schema

  /** The reaction entries for a list of emotes: one entry per emote, named after it,
      in the same order. */
  function ReactionsOf(emotes: seq<Emote>): (r: seq<Reaction>)
    ensures |r| == |emotes|
    ensures forall i :: 0 <= i < |r| ==> r[i].kind == emotes[i].name
  {
    if emotes == [] then [] else [Reaction(emotes[0].name)] + ReactionsOf(emotes[1..])
  }

  /** Turns `a` into a reaction activity about the activity `originalActivityId`. */
  method CreateMessageReactionActivity(
    a: Activity,
    originalActivityId: Snowflake,
    conversation: ConversationAccount,
    reactingUser: Option<ChannelAccount> := None)
    returns (r: Activity)
    modifies a
    ensures r == a
    ensures a.kind == Some(MessageReaction)
    ensures a.id == Some(originalActivityId) && a.replyToId == Some(originalActivityId)
    ensures a.conversation == Some(conversation) && a.from == reactingUser
    ensures unchanged(a`recipient, a`text, a`speak, a`inputHint)
    ensures unchanged(a`reactionsAdded, a`reactionsRemoved, a`suggestedActions, a`attachments)
  {
    a.kind := Some(MessageReaction);
    a.id := Some(originalActivityId);
    a.conversation := Some(conversation);
    a.from := reactingUser;
    a.replyToId := Some(originalActivityId);
    r := a;
  }

  method SetAddedReactions(a: Activity, emotes: seq<Emote>) returns (r: Activity)
    modifies a
    ensures r == a
    ensures a.reactionsAdded == Some(ReactionsOf(emotes))
    ensures unchanged(a`kind, a`id, a`replyToId, a`conversation, a`from, a`recipient)
    ensures unchanged(a`text, a`speak, a`inputHint, a`reactionsRemoved, a`suggestedActions, a`attachments)
  {
    a.reactionsAdded := Some(ReactionsOf(emotes));
    r := a;
  }

  method SetAddedReaction(a: Activity, emote: Emote) returns (r: Activity)
    modifies a
    ensures r == a
    ensures a.reactionsAdded == Some([Reaction(emote.name)])
    ensures unchanged(a`kind, a`id, a`replyToId, a`conversation, a`from, a`recipient)
    ensures unchanged(a`text, a`speak, a`inputHint, a`reactionsRemoved, a`suggestedActions, a`attachments)
  {
    a.reactionsAdded := Some([Reaction(emote.name)]);
    r := a;
  }

  method SetRemovedReactions(a: Activity, emotes: seq<Emote>) returns (r: Activity)
    modifies a
    ensures r == a
    ensures a.reactionsRemoved == Some(ReactionsOf(emotes))
    ensures unchanged(a`kind, a`id, a`replyToId, a`conversation, a`from, a`recipient)
    ensures unchanged(a`text, a`speak, a`inputHint, a`reactionsAdded, a`suggestedActions, a`attachments)
  {
    a.reactionsRemoved := Some(ReactionsOf(emotes));
    r := a;
  }

  method SetRemovedReaction(a: Activity, emote: Emote) returns (r: Activity)
    modifies a
    ensures r == a
    ensures a.reactionsRemoved == Some([Reaction(emote.name)])
    ensures unchanged(a`kind, a`id, a`replyToId, a`conversation, a`from, a`recipient)
    ensures unchanged(a`text, a`speak, a`inputHint, a`reactionsAdded, a`suggestedActions, a`attachments)
  {
    a.reactionsRemoved := Some([Reaction(emote.name)]);
    r := a;
  }

  /** Appends to the added reactions, starting a new list when there is none. */
  method AddReaction(a: Activity, reaction: Reaction) returns (r: Activity)
    modifies a
    ensures r == a
    ensures a.reactionsAdded == Some(old(a.reactionsAdded).GetOr([]) + [reaction])
    ensures unchanged(a`kind, a`id, a`replyToId, a`conversation, a`from, a`recipient)
    ensures unchanged(a`text, a`speak, a`inputHint, a`reactionsRemoved, a`suggestedActions, a`attachments)
  {
    if a.reactionsAdded == None {
      a.reactionsAdded := Some([]);
    }
    a.reactionsAdded := Some(a.reactionsAdded.value + [reaction]);
    r := a;
  }

  /** Appends to the removed reactions, starting a new list when there is none. */
  method RemoveReaction(a: Activity, reaction: Reaction) returns (r: Activity)
    modifies a
    ensures r == a
    ensures a.reactionsRemoved == Some(old(a.reactionsRemoved).GetOr([]) + [reaction])
    ensures unchanged(a`kind, a`id, a`replyToId, a`conversation, a`from, a`recipient)
    ensures unchanged(a`text, a`speak, a`inputHint, a`reactionsAdded, a`suggestedActions, a`attachments)
  {
    if a.reactionsRemoved == None {
      a.reactionsRemoved := Some([]);
    }
    a.reactionsRemoved := Some(a.reactionsRemoved.value + [reaction]);
    r := a;
  }

  /** Swaps sender and recipient; doing it twice restores both. */
  method ReverseSenderAndRecipient(a: Activity) returns (r: Activity)
    modifies a
    ensures r == a
    ensures a.from == old(a.recipient) && a.recipient == old(a.from)
    ensures unchanged(a`kind, a`id, a`replyToId, a`conversation, a`text, a`speak, a`inputHint)
    ensures unchanged(a`reactionsAdded, a`reactionsRemoved, a`suggestedActions, a`attachments)
  {
    var from := a.from;
    var recipient := a.recipient;
    a.from := recipient;
    a.recipient := from;
    r := a;
  }

  /** Reversing twice gives the activity back its original sender and recipient. */
  method ReverseTwice(a: Activity)
    modifies a
    ensures a.from == old(a.from) && a.recipient == old(a.recipient)
  {
    var r := ReverseSenderAndRecipient(a);
    r := ReverseSenderAndRecipient(r);
  }
}

=== FILE: schema.dfy ===
/** Data shared by every part of the adapter: the Discord entities the adapter reads
    (users, channels, messages, buttons), the Bot Framework records it builds
    (accounts, conversation references, reactions) and the Bot Framework activity,
    which the adapter and its helpers change in place and therefore is a class. */
module Schema {

  datatype Option<+T> = None | Some(value: T) {
    function GetOr(default: T): T {
      match this
      case Some(v) => v
      case None => default
    }
  }

  /** A Discord id (a 64-bit unsigned snowflake). */
  type Snowflake = n: int | 0 <= n < 0x1_0000_0000_0000_0000

  /** A point in time: milliseconds since the Unix epoch. */
  type Time = int

  /** Whole Unix seconds of a time, rounded down as DateTimeOffset.ToUnixTimeSeconds does. */
  function UnixSeconds(t: Time): int {
    t / 1000
  }

  // ---------------------------------------------------------------- Discord side

  datatype User = User(id: Snowflake, username: string, isBot: bool)

  /** The channel a message was posted in: a direct-message channel with one
      recipient, or any other kind of channel. */
  datatype Channel = DMChannel(recipient: User) | OtherChannel(channelId: Snowflake)

  datatype ButtonStyle = Primary | Secondary | Success | Danger | Link

  datatype Button = Button(caption: string, customId: string, style: ButtonStyle, disabled: bool)

  /** One component of an action row; only buttons matter to the adapter. */
  datatype Component = ButtonComponent(button: Button) | OtherComponent

  /** A Discord message. `isUserMessage` is false for system messages. */
  datatype Message = Message(
    id: Snowflake,
    author: User,
    channel: Channel,
    timestamp: Time,
    content: string,
    isUserMessage: bool,
    rows: seq<seq<Component>>)

  datatype Emote = Emote(name: string)

  /** A file ready for upload; the downloaded bytes are not modelled, the file is
      identified by the address it was fetched from. */
  datatype FileAttachment = FileAttachment(url: string)

  // ------------------------------------------------------- Bot Framework side

  datatype Role = BotRole | UserRole

  datatype ChannelAccount = ChannelAccount(id: Snowflake, name: string, role: Role)

  datatype ConversationAccount = ConversationAccount(id: Snowflake)

  /** What `GetConversationReference` keeps of an activity. */
  datatype ConversationReference = ConversationReference(
    activityId: Option<Snowflake>,
    user: Option<ChannelAccount>,
    bot: Option<ChannelAccount>,
    conversation: ConversationAccount)

  datatype ActivityType =
    | MessageType
    | MessageReaction
    | Typing
    | MessageUpdate
    | MessageDelete
    | ConversationUpdate
    | EndOfConversation
    | Trace
    | OtherType(name: string)

  datatype InputHint = AcceptingInput | ExpectingInput | IgnoringInput

  /** A reaction entry of an activity; `kind` is the emote name. */
  datatype Reaction = Reaction(kind: string)

  datatype CardAction = CardAction(title: string)

  datatype Attachment = Attachment(contentUrl: Option<string>)

  datatype ResourceResponse = ResourceResponse(id: Guid)

  /** A freshly generated identifier, of a different kind than any Discord id. */
  datatype Guid = Guid(n: nat)

  /** The values of an activity's fields at one moment. */
  datatype ActivityFields = ActivityFields(
    kind: Option<ActivityType>,
    id: Option<Snowflake>,
    replyToId: Option<Snowflake>,
    conversation: Option<ConversationAccount>,
    from: Option<ChannelAccount>,
    recipient: Option<ChannelAccount>,
    text: Option<string>,
    speak: Option<string>,
    inputHint: Option<InputHint>,
    reactionsAdded: Option<seq<Reaction>>,
    reactionsRemoved: Option<seq<Reaction>>,
    suggestedActions: Option<seq<CardAction>>,
    attachments: Option<seq<Attachment>>)

  /** A character .NET's `char.IsWhiteSpace` accepts: the control characters U+0009 to
      U+000D and U+0085, and the Unicode space, line and paragraph separators. */
  predicate IsWhiteSpace(c: char) {
    || '\U{9}' <= c <= '\U{D}' || c == ' ' || c == '\U{85}' || c == '\U{A0}' || c == '\U{1680}'
    || '\U{2000}' <= c <= '\U{200A}' || c == '\U{2028}' || c == '\U{2029}' || c == '\U{202F}'
    || c == '\U{205F}' || c == '\U{3000}'
  }

  /** `string.IsNullOrWhiteSpace` on a present string, scanning it character by character:
      empty, or white space throughout. */
  function Blank(s: string): (r: bool)
    ensures r <==> forall i :: 0 <= i < |s| ==> IsWhiteSpace(s[i])
  {
    |s| == 0 || (IsWhiteSpace(s[0]) && Blank(s[1..]))
  }

  /** What `MessageFactory.Text` stores for a text (and for its speech): null for a blank
      text, so that clients render nothing rather than an empty string, and the text
      itself otherwise. */
  function TextOrNone(s: string): (r: Option<string>)
    ensures r.None? <==> forall i :: 0 <= i < |s| ==> IsWhiteSpace(s[i])
    ensures r.Some? ==> r.value == s
  {
    if Blank(s) then None else Some(s)
  }

  /** A Bot Framework activity. A field the SDK leaves null is `None`. */
  class Activity {
    var kind: Option<ActivityType>
    var id: Option<Snowflake>
    var replyToId: Option<Snowflake>
    var conversation: Option<ConversationAccount>
    var from: Option<ChannelAccount>
    var recipient: Option<ChannelAccount>
    var text: Option<string>
    var speak: Option<string>
    var inputHint: Option<InputHint>
    var reactionsAdded: Option<seq<Reaction>>
    var reactionsRemoved: Option<seq<Reaction>>
    var suggestedActions: Option<seq<CardAction>>
    var attachments: Option<seq<Attachment>>

    /** `new Activity()`: every field null. */
    constructor ()
      ensures kind == None && id == None && replyToId == None && conversation == None
      ensures from == None && recipient == None && text == None && speak == None
      ensures inputHint == None && reactionsAdded == None && reactionsRemoved == None
      ensures suggestedActions == None && attachments == None
    {
      kind, id, replyToId, conversation := None, None, None, None;
      from, recipient, text, speak := None, None, None, None;
      inputHint, reactionsAdded, reactionsRemoved := None, None, None;
      suggestedActions, attachments := None, None;
    }

    /** The activity's current field values. */
    function Fields(): ActivityFields
      reads this
    {
      ActivityFields(kind, id, replyToId, conversation, from, recipient, text, speak,
                     inputHint, reactionsAdded, reactionsRemoved, suggestedActions, attachments)
    }

    /** The activity's conversation id, if it has a conversation. */
    function ConversationId(): Option<Snowflake>
      reads this
    {
      match conversation
      case Some(c) => Some(c.id)
      case None => None
    }
  }
}
